=== FILE: README.md ===
# CopyTop business rules in Dafny

CopyTop is the order-management application of a small digital print
shop. It tracks four kinds of records:

- **papers** (`Hartie`): a paper sort with its format, grammage, stock in
  sheets and the weight of that stock;
- **stock entries** (`Stoc`): receipts of paper from a supplier;
- **clients** (`Beneficiar`);
- **print orders** (`Comanda`): a job on one paper, cut from one press sheet.

Its pages and scripts apply business rules to these records:

- validating and recording orders, papers, receipts and clients;
- invoicing an order and debiting its paper consumption from the stock;
- reversing a receipt, and resetting all stock to zero;
- the consumption, order, client, stock-movement and FSC reports and their
  date windows;
- the v2.0 schema migration;
- the retention logic of the database backups.

This project models those rules and proves what they promise.

- The database session is one object, `ShopState.Shop`. Its fields are the
  paper and client tables, keyed by id, and the entry and order tables, as
  row sequences. Every submit that changes data is a method of it.
- `Shop.Valid` is the ledger invariant. Every method keeps it:
  - no paper has negative stock, and every paper's stored weight equals the
    weight formula applied to its stock;
  - ids are below the next free id;
  - order numbers are unique.
- The rules every page shares are pure functions with lemmas about them:
  validation chains, formulas, numbering, yield tables and date windows.
- Each report loop is a method proved equal to a fold over the rows. Each
  fold is then characterised key by key: which keys appear, and the sum
  over exactly the rows of that key.
- The backup directory, the migration's tables and the clock are
  parameters.

Quantities are exact `real`s. Dates are `(year, month, day)` triples. A
nullable column is an `Option`.

The code gives these rules their shape:

- An order has no in-progress or finalised state. Its only lifecycle flag is
  `facturata`, which goes from false to true when it is invoiced and is
  never reset.
- Stock is debited when an order is invoiced. Creating, editing or deleting
  an order never touches stock.
- The debit uses the flat yield table (`indici_coala`). Order entry uses the
  per-format compatibility table. The two disagree for some sheets, and
  `SheetTables.Sra4YieldsDisagree` and `Invoicing.EntryCountAndDebitDiffer`
  exhibit this.

The pages use attributes that the mapped classes under `app/models` do not
declare:

- on the order (`Comanda`): `cod_fsc_output` and `certificare_fsc_output`,
  written when an order is added or edited (app/pages/comenzi.py:352-385,
  :629-657), and `pdf_path`, read when the edit tab is drawn and when an
  order is deleted (app/pages/comenzi.py:467, :683);
- on the stock entry (`Stoc`): `furnizor`, written by a receipt and shown in
  the lists (app/pages/stoc.py:119, :48, :145);
- on the paper (`Hartie`): `cod_fsc_iesire`, read by the FSC check of a new
  order (app/pages/comenzi.py:287), and `cod_fsc_intrare` and
  `certificare_fsc_intrare`, read by the FSC report
  (app/pages/rapoarte_pdf.py:199-200, :209).

With the classes as declared, these lines fail:

- building a `Comanda` or a `Stoc` with an undeclared keyword raises
  `TypeError`, and the submit is rolled back;
- reading an undeclared attribute raises `AttributeError`, which aborts
  the tab or the report.

The model assumes instead that every one of these columns exists:

- "can produce FSC output" is the optional field `Paper.codFscIesire`,
  which no page sets;
- the FSC output code and certification and the supplier are fields of
  `Order` and `StockEntry`;
- the FSC report's input code is the paper's raw-material code.

## Model

| member | source | states |
|---|---|---|
| Common.DaysInMonth | app/pages/rapoarte_pdf.py:293 | A month has 28 to 31 days; February has 29 exactly in leap years |
| Common.DayBefore | app/pages/facturare.py:245 | The day before a valid date is a valid, strictly earlier date; it steps back across month and year boundaries |
| SheetTables.BuiltInIndicesPositive | app/pages/facturare.py:19-41 | Every built-in yield is positive, in the two flat tables and in every row of the per-format compatibility table, so the built-in tables meet the positive-yield precondition of order entry, invoicing and the reports |
| SheetTables.Sra4YieldsDisagree | app/pages/comenzi.py:24-60 | SRA4 press sheets yield 9 per "70 x 100" sheet at order entry but 8 in the flat debit table |
| SheetTables.Sra3YieldsDisagree | app/pages/comenzi.py:26-82 | SRA3 press sheets yield 1 per SRA3 sheet at order entry but 4 in the flat debit table |
| PaperModel.StockWeight | app/models/hartie.py:32-34 | Zero stock weighs nothing; non-negative dimensions, grammage and stock give a non-negative weight |
| PaperModel.WeightAdditive | app/models/hartie.py:32-34 | The weight of `s + c` sheets is the weight of `s` sheets plus the weight of `c` sheets |
| PaperModel.WithStock | app/pages/stoc.py:126-127 | Setting the stock recomputes a weight that matches it and keeps every other column; a non-negative stock satisfies the ledger invariant |
| PaperModel.StockChangeWeight | app/pages/stoc.py:126-127 | Changing the stock of a consistent paper by `c` changes its weight by exactly the weight of `c` sheets |
| PaperModel.StockChangeRoundTrip | app/pages/stoc.py:126-168 | Receiving `c` sheets and reversing that receipt gives back the original paper, stock and weight |
| PaperModel.Zeroed | app/script_stergere_hartie.py:43-45 | Writing stock 0 and weight 0 is the same as setting the stock to 0 with the weight recomputed, and keeps the ledger invariant |
| OrderModel.JobWeight | app/models/comenzi.py:51-53 | The job weight is positive when every factor is positive, and zero for a zero run |
| OrderModel.JobWeightLinear | app/models/comenzi.py:51-53 | `k` times the run weighs `k` times as much |
| OrderModel.PriceOrZero | app/pages/rapoarte.py:219 | A missing price counts as 0; a present price counts as itself |
| OrderModel.TotalPriceNonNegative | app/pages/facturare.py:255-268 | A total over non-negative (or missing) prices is non-negative |
| OrderModel.MaxNumber | app/pages/comenzi.py:212 | The number of the order listed first by descending number bounds every order number and belongs to some order |
| OrderPage.CertificationFor | app/pages/comenzi.py:293-295 | No code gives no certification; a listed output code gives its table certification |
| OrderPage.CertificationsFilled | app/pages/comenzi.py:124-133 | Every listed output code has a non-empty certification |
| OrderPage.NextOrderNumber | app/pages/comenzi.py:212-213 | The first order gets 1; otherwise the new number is one above the largest and differs from every existing number |
| OrderPage.NextNumberKeepsUnique | app/models/comenzi.py:11 | Appending an order with the next number keeps order numbers unique |
| OrderPage.OfferedSheets | app/pages/comenzi.py:241 | The offered sheets are the compatibility row of the paper's format, or none for an unknown format; the yields stay positive |
| OrderPage.CreationSheetIndex | app/pages/comenzi.py:241-248 | The add form's yield is the chosen sheet's table value, or 1 when nothing is offered or chosen |
| OrderPage.EditSheet | app/pages/comenzi.py:550-557 | The edit form's sheet and yield: a placeholder and yield 0 when nothing is compatible, otherwise the chosen sheet and its value (1 when absent); with positive tables the yield is 0 exactly when nothing is compatible |
| OrderPage.ColiMari | app/pages/comenzi.py:332 | Large sheets exist exactly when press sheets are given, and times the yield give back the press-sheet count |
| OrderPage.ValidateNewOrder | app/pages/comenzi.py:339-348 | The add form is accepted iff no check fails; otherwise the verdict is a failing check and every earlier check passes |
| OrderPage.ValidateOrderEdit | app/pages/comenzi.py:618-626 | The edit form is accepted iff none of the text, even-page and FSC-code checks fails; otherwise the verdict is the first failing one |
| OrderPage.EditAcceptsWhatAddAccepts | app/pages/comenzi.py:620-626 | Every form the add page accepts is accepted by the edit page |
| OrderPage.EditSkipsSheetCheck | app/pages/comenzi.py:620-626 | A form rejected at entry only for an incompatible sheet passes the edit checks |
| OrderPage.PaperFscCheckShadowed | app/pages/comenzi.py:285-348 | Because an output code is offered only for FSC-capable paper, the "paper cannot produce FSC" check never decides the verdict |
| OrderPage.EditFscCheckNeverFails | app/pages/comenzi.py:532-539 | A code chosen from the output-code table never fails the edit form's FSC check |
| OrderPage.NewOrder | app/pages/comenzi.py:352-385 | A new order has the given number, no price, is not invoiced, has the weight of its own dimensions and the large-sheet count of its press sheets, and copies every form field |
| OrderPage.EditedOrder | app/pages/comenzi.py:629-657 | An edit overwrites every form field and recomputes weight and large sheets; number, price and invoiced flag are kept |
| OrderPage.EditVerdict | app/pages/comenzi.py:549-626 | An edit takes effect iff the form can be drawn, the order is not invoiced and the edit checks pass; an invoiced order is never updated |
| OrderPage.DeleteVerdict | app/pages/comenzi.py:549-687 | A delete goes through iff the edit form can be drawn and the order is not invoiced; it goes through wherever an update would, and also where the edit checks reject the form |
| Invoicing.IndexOrOne | app/pages/facturare.py:177 | The yield is the table value, or 1 for a sheet missing from the table, and positive for positive tables |
| Invoicing.InvoiceConsumption | app/pages/facturare.py:176-178 | No press sheets means no consumption; otherwise consumption times yield is the press-sheet count, and it is positive |
| Invoicing.CheckInvoice | app/pages/facturare.py:176-202 | Invoicing succeeds iff the price is positive and the stock suffices; the price is checked first; success returns the consumption, which is at most the stock |
| Invoicing.InvoicedOrder | app/pages/facturare.py:206-207 | The invoiced order carries the entered price and the invoiced flag, and nothing else changes |
| Invoicing.DebitedPaper | app/pages/facturare.py:210-212 | A positive consumption lowers the stock by exactly that amount with the weight recomputed; a zero consumption leaves the paper as it was |
| Invoicing.InvoiceKeepsStockOk | app/pages/facturare.py:182-212 | A successful invoice lowers the stock by exactly the consumption and keeps it non-negative with a matching weight |
| Invoicing.EntryCountAndDebitDiffer | app/pages/facturare.py:176-178 | 72 SRA4 press sheets on "70 x 100" paper count as 8 large sheets at entry but are debited as 9 sheets at invoicing |
| Invoicing.MonthBefore | app/pages/facturare.py:233-239 | The previous month of January is December of the year before; otherwise it is the month before in the same year |
| Invoicing.ReportWindow | app/pages/facturare.py:226-248 | Current month: the first of the month to today; previous month: its first to its last day; all invoiced: no bound |
| Invoicing.TotalInvoiced | app/pages/facturare.py:251-268 | The total is the price sum, missing prices as 0, over exactly the reported invoiced orders of known clients in the window |
| PaperPage.FormatDimensionsPositive | app/pages/hartie.py:10-21 | Every paper format has positive dimensions |
| PaperPage.FscFields | app/pages/hartie.py:184-195 | With the FSC box unchecked no code or certification is stored; otherwise the entered ones are |
| PaperPage.ValidatePaper | app/pages/hartie.py:120-125 | The paper form is accepted iff the sort name is filled in, the grammage is positive and, for FSC paper, code and certification are filled in; the missing-fields error comes first |
| PaperPage.NewPaper | app/pages/hartie.py:129-140 | A new paper takes its dimensions from its format, has the entered stock with a matching weight and the form's FSC fields, and no supplier data |
| PaperPage.UpdatedPaper | app/pages/hartie.py:216-225 | An edit overwrites every form field, the stock included, with a weight matching the new stock, and keeps id and supplier data |
| PaperPage.UncheckedFscClears | app/pages/hartie.py:193-195 | Editing with the FSC box unchecked clears the raw-material code and certification |
| PaperPage.SearchPapers | app/pages/hartie.py:41-46 | The paper list holds exactly the papers whose sort name contains the query, ignoring case; an empty query lists all of them |
| PaperPage.EmptyQueryMatchesAll | app/pages/hartie.py:41-46 | Filtering by the empty query keeps every paper, so both branches of the search agree |
| StockPage.ValidateReceipt | app/pages/stoc.py:104-110 | A receipt is accepted iff invoice number and supplier are filled in and the quantity is positive; the checks run in that order |
| StockPage.PreviewStock | app/pages/stoc.py:99 | The previewed stock is the stock the receipt will store, and a positive quantity raises it |
| StockPage.EntriesInPeriod | app/pages/stoc.py:31-34 | The listing holds exactly the entries of existing papers dated in the period, both ends included |
| ClientPage.ValidClientFields | app/pages/beneficiari.py:69-71 | A client is accepted iff name, contact person, phone and e-mail are all filled in |
| ClientPage.ClientsByName | app/pages/beneficiari.py:93 | The listing is a permutation of the clients, ordered by name |
| ClientPage.SearchClients | app/pages/beneficiari.py:25-30 | The search holds exactly the clients whose name contains the query, ignoring case (all of them for an empty query), ordered by name |
| StockReset.ConfirmsExactly | app/script_stergere_hartie.py:30-34 | The reset is confirmed exactly by "DA", "Da", "dA" or "da" |
| ShopState.ZeroedValid | app/script_stergere_hartie.py:42-45 | Zeroing every paper keeps the paper table's ledger invariant |
| ShopState.Shop.AddPaper | app/pages/hartie.py:120-143 | A rejected form changes nothing; an accepted one stores the new paper under the next id and changes nothing else; the ledger invariant holds |
| ShopState.Shop.UpdatePaper | app/pages/hartie.py:207-227 | A rejected form changes nothing; an accepted one overwrites that paper and nothing else; the ledger invariant holds |
| ShopState.Shop.ReceiveStock | app/pages/stoc.py:103-129 | A rejected receipt changes nothing; an accepted one appends the entry and raises that paper's stock by exactly the quantity, with the weight recomputed |
| ShopState.Shop.ReverseEntry | app/pages/stoc.py:162-175 | The reversal happens iff the stock covers the quantity; it lowers the stock by the quantity and removes the entry; otherwise nothing changes |
| ShopState.Shop.ResetStock | app/script_stergere_hartie.py:18-47 | With no entries, or no confirmation, nothing changes; otherwise every entry is deleted and every paper zeroed, and clients and orders are kept |
| ShopState.Shop.AddOrder | app/pages/comenzi.py:337-387 | The verdict is the add form's first failing check; an accepted order is appended under the next number; paper stock is never touched |
| ShopState.Shop.UpdateOrder | app/pages/comenzi.py:618-659 | The outcome is the edit verdict; only an updated outcome replaces the order, so invoiced orders stay as they were |
| ShopState.Shop.DeleteOrder | app/pages/comenzi.py:541-687 | The delete button of the edit form deletes the order exactly when the form can be drawn and the order is not invoiced, and nothing else changes; otherwise nothing changes |
| ShopState.Shop.Invoice | app/pages/facturare.py:198-214 | The result is the invoice check; on failure nothing changes; on success the order is invoiced at the price and its paper debited by the consumption |
| ShopState.Shop.AddClient | app/pages/beneficiari.py:68-82 | An incomplete client changes nothing; a complete one is stored under the next id |
| ShopState.Shop.UpdateClient | app/pages/beneficiari.py:117-128 | An incomplete edit changes nothing; a complete one overwrites exactly the four fields of that client |
| Reports.SheetConsumption | app/pages/rapoarte.py:72 | An order's consumption times its sheet's yield is its press-sheet count; 0 for an unknown sheet |
| Reports.ConsumptionReport | app/pages/rapoarte.py:40-84 | A period starting after it ends is refused; otherwise the table is the fold of the counted orders |
| Reports.ConsumptionByKey | app/pages/rapoarte.py:68-84 | A paper sort has a line iff some counted order uses it; the line holds the sum of those orders' consumption, the sum of their weights and their numbers |
| Reports.OrdersColumnCountsOrders | app/pages/rapoarte.py:94 | With unique order numbers, the "Comenzi" column is the number of orders counted under the sort |
| Reports.OrderReport | app/pages/rapoarte.py:182-228 | The rows are exactly the orders matching period, client and status, in table order; the total sums their prices (missing as 0); the invoiced count counts the invoiced rows |
| Reports.StatusPartition | app/pages/rapoarte.py:192-195 | "Toate" lists as many rows, worth as much, as "Doar facturate" and "Doar nefacturate" together |
| Reports.ClientStats | app/pages/rapoarte.py:278-284 | The statistics are the fold over every order of an existing client |
| Reports.ClientStatsByName | app/pages/rapoarte.py:278-284 | A name has a line iff some order belongs to a client of that name; the line holds the number of those orders and the sum of their prices, missing as 0 |
| PdfReports.Outflow | app/pages/rapoarte_pdf.py:96-97 | An order with press sheets of a known sheet takes out press sheets over yield; any other order takes out nothing |
| PdfReports.MovementRow | app/pages/rapoarte_pdf.py:104-115 | Initial stock plus receipts minus consumption is the final stock, which is the current stock; the difference is receipts minus consumption |
| PdfReports.PaperOutflow | app/pages/rapoarte_pdf.py:85-98 | The consumption is the sum of the outflows of that paper's invoiced orders in the period |
| PdfReports.StockReport | app/pages/rapoarte_pdf.py:67-115 | A period starting after it ends is refused; otherwise there is one line per paper, in table order, built from its receipts and consumption in the period |
| PdfReports.QuietPeriodKeepsStock | app/pages/rapoarte_pdf.py:101-106 | With no receipt and no consumption in the period, the initial and final stock agree and the difference is 0 |
| PdfReports.FscReport | app/pages/rapoarte_pdf.py:156-241 | A period starting after it ends is refused; otherwise the report lists exactly the invoiced FSC orders in the period (of the selected client), with their consumption summary, count, price total and run total |
| PdfReports.SummarizeFsc | app/pages/rapoarte_pdf.py:187-213 | The accumulation loop computes the FSC consumption summary of the listed orders |
| PdfReports.FscSummaryByKey | app/pages/rapoarte_pdf.py:208-213 | A paper sort has a summary line iff some listed order uses it, and the line is the sum of those orders' outflows |
| PdfReports.FscListedIsInvoicedListed | app/pages/rapoarte_pdf.py:163-175 | Every order of the FSC report is listed by the order report restricted to invoiced orders |
| PdfReports.MonthWindow | app/pages/rapoarte_pdf.py:292-293 | The window runs from the first to the last day of the month, and a valid date lies in it iff it is in that month |
| PdfReports.CurrentMonthWindow | app/pages/rapoarte_pdf.py:290-293 | Today lies in the current-month window |
| PdfReports.PreviousMonthWindow | app/pages/rapoarte_pdf.py:302-312 | January's previous month is December of the year before; the window ends the day before the first of this month |
| PdfReports.PreviousMonthWindowsAgree | app/pages/facturare.py:233-248 | The invoicing page's previous-month window equals this page's |
| PdfReports.Quarter | app/pages/rapoarte_pdf.py:323-325 | The quarter is 1 to 4, runs from month 3q-2 to 3q, and contains the month |
| PdfReports.QuarterWindow | app/pages/rapoarte_pdf.py:320-328 | The quarter window covers three months of this year, from the first day of the first to the last day of the last, and contains today |
| Migration.MigratePaperRow | app/script_migrare.py:61-82 | Rows with neither legacy code nor certification keep their split columns; others are FSC iff the legacy code is filled in, get the raw-material code exactly then, and take the legacy certification; afterwards both legacy columns are gone |
| Migration.MigratePapers | app/script_migrare.py:61-82 | Every paper row is migrated and dropped of its legacy columns, and none is added or removed |
| Migration.MigratePaperTable | app/script_migrare.py:36-82 | The split columns are added when absent; only when both legacy columns exist are the rows migrated and the legacy columns dropped; otherwise the rows stay as they were |
| Migration.MigratePaperTableIdempotent | app/script_migrare.py:36-82 | A second run of the paper migration changes neither schema nor rows, because the data move never runs twice |
| Migration.MigrateOrderFsc | app/script_migrare.py:150-161 | A row is product-certified iff the legacy flag is true (missing as false), and gets the product code and type exactly then; other columns are kept |
| Migration.DefaultMissingFsc | app/script_migrare.py:172-177 | Rows without product certification become not certified, with the legacy flag false; certified rows are kept |
| Migration.CeilDiv | app/script_migrare.py:187 | The quotient rounded up is the least multiple count covering the dividend |
| Migration.ComputeSheets | app/script_migrare.py:185-189 | Rows without a press-sheet count, with positive run and copies per sheet, get the least sheet count covering the run and the total with spares; other rows are kept |
| Migration.MigrateOrders | app/script_migrare.py:147-193 | Every order row goes through the three UPDATEs in order and none is added or dropped |
| Migration.DefaultAfterFscChangesNothing | app/script_migrare.py:172-177 | After the product FSC UPDATE, the default UPDATE finds nothing to change |
| Migration.ComputeSheetsIdempotent | app/script_migrare.py:189 | Re-running the press-sheet UPDATE changes nothing |
| Migration.MigrateOrdersIdempotent | app/script_migrare.py:147-193 | Re-running the order migration on migrated rows changes nothing |
| Migration.AddMissingColumns | app/script_migrare.py:113-116 | The add-if-absent loop adds, in order, exactly the wanted columns the table lacks |
| Migration.WithColumnsContents | app/script_migrare.py:113-144 | Existing columns stay first and in place; afterwards the table has exactly its old columns and the wanted ones |
| Migration.WithColumnsDistinct | app/script_migrare.py:113-144 | Adding columns never creates a duplicate column name |
| Migration.WithColumnsPresent | app/script_migrare.py:41-51 | A table that already has every wanted column is left as it is |
| Migration.WithColumnsIdempotent | app/script_migrare.py:113-144 | Re-running the add-if-absent loop leaves the schema unchanged |
| Migration.MigrateOrderSchema | app/script_migrare.py:105-144 | The order table keeps its columns first and gains exactly the press-sheet, product-FSC and finishing columns it lacks |
| Migration.RecordMigration | app/script_migrare.py:390-413 | Afterwards the history has the v2.0 row; an existing one means no change, otherwise exactly that row is appended |
| Migration.RecordMigrationIdempotent | app/script_migrare.py:408-413 | Recording the migration twice is recording it once |
| Migration.RecordMigrationOnce | app/script_migrare.py:408-413 | A history without v2.0 gains exactly one v2.0 row |
| Backups.ListBackups | app/services/backup_service.py:302 | The listing is a permutation of the directory's `*.sql*` files, ordered by name descending |
| Backups.SurplusStart | app/services/backup_service.py:328-330 | Where `backups[max_backups:]` starts: at `max_backups` for a non-negative limit; for a negative limit `n` (`MAX_BACKUPS` is read without a range check), `-n` entries before the end, or at 0 when there are fewer |
| Backups.CleanupOldBackups | app/services/backup_service.py:318-338 | Up to the limit nothing is deleted; beyond it the files of the surplus slice are deleted, except those that cannot be; the count is the number deleted. A negative limit is always exceeded |
| Backups.DeleteEach | app/services/backup_service.py:330-336 | The loop deletes, in order, exactly the surplus files that can be deleted and counts them; a failure does not stop it |
| Backups.CleanupPartitions | app/services/backup_service.py:328-336 | Every listed backup is either kept or removed, never both, for any limit |
| Backups.CleanupKeepsNewest | app/services/backup_service.py:328-333 | When every deletion succeeds, exactly the entries before the surplus remain: the first `max_backups` for a non-negative limit; for a negative limit `n`, all but the last `-n`, or none when there are no more, so even a single backup is deleted |
| Backups.CleanupFreesRemovedSize | app/services/backup_service.py:328-333 | When every deletion succeeds, the kept and the removed backups together weigh the whole listing, for any limit |
| Backups.DeleteBackup | app/services/backup_service.py:350-360 | Deleting succeeds iff the file exists and its deletion does not fail; a missing file or a failed deletion changes nothing; a success removes that file and keeps every other |
| Backups.GetBackupStats | app/services/backup_service.py:369-386 | An empty listing gives zeros and no dates; otherwise the count, the total size in MiB, the last entry's date as oldest and the first's as newest |
| Backups.BackupFileName | app/services/backup_service.py:130-134 | The name is the given name or "backup", then "_", the timestamp and ".sql", and the listing recognises it as a backup |

## Left out

- The Streamlit interface is not modelled: widgets, tabs, reruns, styling and the password gate of the invoicing page. Each submit is a method taking the values the form would submit.
- PDF, Excel and chart output is not modelled (report generators, exports, the per-client chart of the order report), nor the order PDF bookkeeping.
- Database plumbing, subprocess calls, compression and backup restore are not modelled, nor the migration's own backup, compatibility view, column renames and rollback.
- An exception inside a submit rolls the session back. The model has no exceptions, so every submit either completes or is refused by its checks.
- Paper and client deletion are not modelled: their behaviour depends on foreign-key handling outside the application code.
- The order list tab (app/pages/comenzi.py:141-198) only displays rows and is not modelled.
- The yield tables are read from a configuration file when one exists. The model takes them as parameters and keeps the built-in values as constants.
- Invoicing.CheckInvoice, ShopState.Shop.Invoice, Reports.ConsumptionReport, PdfReports.StockReport, PdfReports.FscReport, ShopState.Shop.AddOrder, ShopState.Shop.UpdateOrder and ShopState.Shop.DeleteOrder: assume every yield of a configured table is positive, which the built-in tables are (SheetTables.BuiltInIndicesPositive). The source accepts any table from the configuration file. There, a zero yield raises `ZeroDivisionError` (app/pages/facturare.py:178, app/pages/rapoarte.py:72, app/pages/rapoarte_pdf.py:97). A negative yield gives a negative consumption, which passes the stock check and is never debited (app/pages/facturare.py:210).
- Floating-point rounding, `:.2f` formatting and `round` are not modelled; quantities are exact reals.
- Concurrent sessions are not modelled. The stock check and debit of invoicing run without a lock.
- The clock is a parameter (`today`, the timestamp of a backup name).
- Common.ContainsIgnoringCase: folds ASCII letters only, whereas the database's `ILIKE` folds every letter.
- ClientPage.ClientsByName: orders names by code point, whereas the database orders by its collation.
- A client chosen on the order, invoicing and report pages is picked by name (the first client of that name). The model takes the client's id.
- ShopState.Shop.Invoice: requires the order not to be invoiced yet, since the page offers only unbilled orders.
- ShopState.Shop.ResetStock: builds the zeroed table in a local map and assigns it in one step, so a partially zeroed table is never visible; the script commits once at the end in the same way.
- Backups.ListBackups: does not model a file whose size or date cannot be read, which the listing skips.
- Backups.CleanupOldBackups and Backups.DeleteBackup: a deletion fails exactly for the names in `failing`; the cause of a failure (a locked file, a permission error) and its message are not modelled.
- Migration.MigrateOrders: assumes the legacy `fsc` column exists. Without it the product-certification UPDATE is skipped, and that branch is not modelled.
- Migration.RecordMigration: when reading the history fails, the migration proceeds as if v2.0 were absent; that fallback is not modelled.
- The migration script exits with status 1 after a successful run (app/script_migrare.py:493). Exit statuses are not modelled.
- PdfReports.FscSummary: keys the summary by the paper's raw-material FSC code, because the input-code attribute the page reads is not a paper column.
- PaperPage.SearchPapers: matches the query as a literal substring, whereas `ilike(f"%{q}%")` (app/pages/hartie.py:42-43) treats `%`, `_` and `\` in the query as pattern characters ("A_4" matches "A34", "%" matches every paper).
- ClientPage.SearchClients: matches the query as a literal substring, whereas `ilike` (app/pages/beneficiari.py:25-27) treats `%`, `_` and `\` in the query as pattern characters.
- ShopState.Shop.AddOrder: assumes the order has the FSC output columns and the paper has `cod_fsc_iesire`. As the classes are declared, `Comanda(..., cod_fsc_output=...)` raises `TypeError` and the order is not added, and ticking FSC raises `AttributeError` at app/pages/comenzi.py:287.
- ShopState.Shop.ReceiveStock: assumes the stock entry has a `furnizor` column. As declared, `Stoc(..., furnizor=...)` raises `TypeError` and the receipt is rolled back.
- ShopState.Shop.UpdateOrder: assumes the order has a `pdf_path` column. As declared, reading it at app/pages/comenzi.py:467 aborts the edit tab before its form is drawn.
- ShopState.Shop.DeleteOrder: assumes the order has a `pdf_path` column. As declared, the edit tab aborts at app/pages/comenzi.py:467, and the delete would fail at :683. Removing the order's PDF file is not modelled.
- PdfReports.FscReport: assumes the paper has the FSC input code and certification. As declared, reading `cod_fsc_intrare` at app/pages/rapoarte_pdf.py:199 aborts the report.
- Migration.MigratePaperTable: an error during the data move is logged and the migration goes on with the legacy columns kept. That path is not modelled.

=== FILE: backups.dfy ===
/**
 * The list logic of the backup service over an abstract backup
 * directory: which files count as backups and in which order they are
 * listed, how the oldest beyond the retention limit are removed, deleting
 * one backup, the statistics, and the name a new backup gets.
 */
module Backups {
  import opened Common

  /** A file of the backup directory: its name, its size in bytes and its modification time. */
  datatype BackupFile = BackupFile(name: string, size: nat, created: int)

  function FileName(f: BackupFile): string {
    f.name
  }

  /** A file the glob `*.sql*` matches: its name contains ".sql". */
  predicate IsBackup(f: BackupFile) {
    Contains(f.name, ".sql")
  }

  /** The backups of directory `dir`, sorted by name in reverse order. */
  function ListBackups(dir: seq<BackupFile>): (r: seq<BackupFile>)
    ensures SortedBy(r, FileName, true)
    ensures multiset(r) == multiset(Filter(dir, IsBackup))
    ensures forall i :: 0 <= i < |r| ==> IsBackup(r[i]) && r[i] in dir
    ensures forall i :: 0 <= i < |dir| && IsBackup(dir[i]) ==> dir[i] in r
  {
    var backups := Filter(dir, IsBackup);
    FilterMembers(dir, IsBackup);
    var r := SortBy(backups, FileName, true);
    assert forall i :: 0 <= i < |r| ==> r[i] in backups;
    r
  }

  // ---------------------------------------------------------------- cleanup

  /** A backup whose deletion succeeds: it is not among the files that cannot be deleted. */
  function Deletable(failing: set<string>): BackupFile -> bool {
    (f: BackupFile) => f.name !in failing
  }

  function Undeletable(failing: set<string>): BackupFile -> bool {
    (f: BackupFile) => f.name in failing
  }

  /**
   * Where `backups[maxBackups:]` starts in a listing of `count` backups.
   * The limit comes from the environment unchecked, so it may be negative;
   * Python then counts from the end, and the surplus is the last
   * `-maxBackups` entries (all of them when there are fewer).
   */
  function SurplusStart(count: nat, maxBackups: int): (k: nat)
    requires count > maxBackups
    ensures k <= count
    ensures maxBackups >= 0 ==> k == maxBackups
    ensures maxBackups < 0 && count <= -maxBackups ==> k == 0
    ensures maxBackups < 0 && count > -maxBackups ==> count - k == -maxBackups
  {
    if maxBackups >= 0 then maxBackups
    else if count + maxBackups < 0 then 0
    else count + maxBackups
  }

  /**
   * What the listing keeps after cleanup: the entries before the surplus,
   * and of the surplus those whose deletion failed.
   */
  function Kept(backups: seq<BackupFile>, maxBackups: int, failing: set<string>): seq<BackupFile> {
    if |backups| <= maxBackups then backups
    else
      var k := SurplusStart(|backups|, maxBackups);
      backups[..k] + Filter(backups[k..], Undeletable(failing))
  }

  /**
   * Removes the backups beyond the newest `maxBackups` of the listing;
   * the files named in `failing` cannot be deleted and are skipped. Returns
   * how many were deleted and which.
   */
  method CleanupOldBackups(dir: seq<BackupFile>, maxBackups: int, failing: set<string>)
    returns (deleted: nat, removed: seq<BackupFile>)
    ensures |ListBackups(dir)| <= maxBackups ==> deleted == 0 && removed == []
    ensures |ListBackups(dir)| > maxBackups ==>
      removed == Filter(ListBackups(dir)[SurplusStart(|ListBackups(dir)|, maxBackups)..], Deletable(failing))
    ensures deleted == |removed|
  {
    var backups := ListBackups(dir);
    if |backups| <= maxBackups {
      return 0, [];
    }
    deleted, removed := DeleteEach(backups[SurplusStart(|backups|, maxBackups)..], failing);
  }

  /**
   * Tries to delete each backup of `surplus` in turn; a failed deletion is
   * skipped and the loop goes on. Returns how many were deleted and which.
   */
  method DeleteEach(surplus: seq<BackupFile>, failing: set<string>) returns (deleted: nat, removed: seq<BackupFile>)
    ensures removed == Filter(surplus, Deletable(failing))
    ensures deleted == |removed|
  {
    deleted, removed := 0, [];
    for i := 0 to |surplus|
      invariant removed == Filter(surplus[..i], Deletable(failing))
      invariant deleted == |removed|
    {
      FilterStep(surplus, i, Deletable(failing));
      if surplus[i].name !in failing {
        removed := removed + [surplus[i]];
        deleted := deleted + 1;
      }
    }
    assert surplus[..|surplus|] == surplus;
  }

  /** Every listed backup is either kept or removed, and none is both. */
  lemma {:induction false} FilterSplits(s: seq<BackupFile>, failing: set<string>)
    ensures multiset(Filter(s, Undeletable(failing))) + multiset(Filter(s, Deletable(failing))) == multiset(s)
  {
    if s != [] {
      var init, f := s[..|s| - 1], s[|s| - 1];
      assert s == init + [f];
      FilterSplits(init, failing);
      FilterSnoc(init, f, Undeletable(failing));
      FilterSnoc(init, f, Deletable(failing));
    }
  }

  /** The cleanup partitions a listing into the kept and the removed backups. */
  lemma CleanupPartitions(b: seq<BackupFile>, maxBackups: int, failing: set<string>)
    requires |b| > maxBackups
    ensures var k := SurplusStart(|b|, maxBackups);
      multiset(Kept(b, maxBackups, failing)) + multiset(Filter(b[k..], Deletable(failing))) == multiset(b)
  {
    var k := SurplusStart(|b|, maxBackups);
    FilterSplits(b[k..], failing);
    assert b == b[..k] + b[k..];
  }

  /**
   * When every deletion succeeds, exactly the entries before the surplus
   * are kept: the first `maxBackups` for a non-negative limit; for a
   * negative one, all but the last `-maxBackups` (none when there are no
   * more than that), so that even a single backup is deleted.
   */
  lemma CleanupKeepsNewest(b: seq<BackupFile>, maxBackups: int)
    requires |b| > maxBackups
    ensures Kept(b, maxBackups, {}) == b[..SurplusStart(|b|, maxBackups)]
    ensures maxBackups >= 0 ==> |Kept(b, maxBackups, {})| == maxBackups
    ensures maxBackups < 0 && |b| <= -maxBackups ==> Kept(b, maxBackups, {}) == []
    ensures maxBackups < 0 && |b| > -maxBackups ==> |Kept(b, maxBackups, {})| == |b| + maxBackups
  {
    var k := SurplusStart(|b|, maxBackups);
    FilterNone(b[k..], Undeletable({}));
    assert b[..k] + [] == b[..k];
  }

  // ------------------------------------------------------------ delete one

  function NotNamed(name: string): BackupFile -> bool {
    (f: BackupFile) => f.name != name
  }

  /**
   * Deletes the backup named `name`: fails, changing nothing, when there
   * is no such file or when its deletion fails (a name in `failing`, as in
   * the cleanup); otherwise that file goes and every other file stays.
   */
  function DeleteBackup(dir: seq<BackupFile>, name: string, failing: set<string>): (r: (bool, seq<BackupFile>))
    ensures r.0 <==> (exists i :: 0 <= i < |dir| && dir[i].name == name) && name !in failing
    ensures !r.0 ==> r.1 == dir
    ensures r.0 ==> forall i :: 0 <= i < |r.1| ==> r.1[i].name != name && r.1[i] in dir
    ensures r.0 ==> forall i :: 0 <= i < |dir| && dir[i].name != name ==> dir[i] in r.1
  {
    if name in failing then (false, dir)
    else if exists i :: 0 <= i < |dir| && dir[i].name == name then
      FilterMembers(dir, NotNamed(name));
      (true, Filter(dir, NotNamed(name)))
    else (false, dir)
  }

  // ------------------------------------------------------------ statistics

  /** Sum of the sizes of `bs` in bytes. */
  function TotalSize(bs: seq<BackupFile>): nat {
    if bs == [] then 0 else TotalSize(bs[..|bs| - 1]) + bs[|bs| - 1].size
  }

  lemma {:induction false} TotalSizeAppend(a: seq<BackupFile>, b: seq<BackupFile>)
    ensures TotalSize(a + b) == TotalSize(a) + TotalSize(b)
    decreases |b|
  {
    if b == [] {
      assert a + b == a;
    } else {
      assert (a + b)[..|a + b| - 1] == a + b[..|b| - 1];
      TotalSizeAppend(a, b[..|b| - 1]);
    }
  }

  datatype BackupStats = BackupStats(totalBackups: nat, totalSizeMb: real, oldest: Option<int>, newest: Option<int>)

  /**
   * Statistics of a listing: none for an empty one; otherwise the number
   * of backups, their total size in MiB, the date of the last listed
   * (oldest) and of the first listed (newest).
   */
  function GetBackupStats(backups: seq<BackupFile>): (s: BackupStats)
    ensures backups == [] ==> s == BackupStats(0, 0.0, None, None)
    ensures backups != [] ==>
      && s.totalBackups == |backups|
      && s.totalSizeMb * 1048576.0 == TotalSize(backups) as real
      && s.oldest == Some(backups[|backups| - 1].created)
      && s.newest == Some(backups[0].created)
  {
    if backups == [] then BackupStats(0, 0.0, None, None)
    else BackupStats(|backups|, TotalSize(backups) as real / (1024 * 1024) as real,
                     Some(backups[|backups| - 1].created), Some(backups[0].created))
  }

  /**
   * When every deletion succeeds, the space the cleanup frees is the size
   * of the removed backups: the kept ones weigh the rest.
   */
  lemma CleanupFreesRemovedSize(b: seq<BackupFile>, maxBackups: int)
    requires |b| > maxBackups
    ensures var k := SurplusStart(|b|, maxBackups);
      TotalSize(Kept(b, maxBackups, {})) + TotalSize(Filter(b[k..], Deletable({}))) == TotalSize(b)
  {
    var k := SurplusStart(|b|, maxBackups);
    CleanupKeepsNewest(b, maxBackups);
    FilterAll(b[k..], Deletable({}));
    TotalSizeSplit(b, k);
  }

  lemma TotalSizeSplit(b: seq<BackupFile>, k: nat)
    requires k <= |b|
    ensures TotalSize(b[..k]) + TotalSize(b[k..]) == TotalSize(b)
  {
    var front, back := b[..k], b[k..];
    assert front + back == b;
    TotalSizeAppend(front, back);
  }

  // ------------------------------------------------------------- file name

  /**
   * The name of a new backup: the given name, or "backup", then "_", the
   * timestamp and ".sql"; an empty given name counts as none.
   */
  function BackupFileName(backupName: Option<string>, timestamp: string): (r: string)
    ensures Filled(backupName) ==> r == backupName.value + "_" + timestamp + ".sql"
    ensures !Filled(backupName) ==> r == "backup_" + timestamp + ".sql"
    ensures IsBackup(BackupFile(r, 0, 0))
  {
    var r := if backupName.Some? && backupName.value != "" then backupName.value + "_" + timestamp + ".sql"
             else "backup_" + timestamp + ".sql";
    assert OccursAt(r, ".sql", |r| - 4);
    r
  }
}

=== FILE: client_page.dfy ===
/**
 * The clients (`Beneficiar`) and the rules of the clients page: every
 * field required, listings ordered by name, search by name. Adding and
 * editing are methods of `ShopState.Shop`.
 */
module ClientPage {
  import opened Common

  datatype Client = Client(id: int, nume: string, persoanaContact: string, telefon: string, email: string)

  /** The add and edit forms accept a client only with all four fields filled in. */
  function ValidClientFields(nume: string, persoanaContact: string, telefon: string, email: string): (ok: bool)
    ensures ok <==> nume != "" && persoanaContact != "" && telefon != "" && email != ""
    ensures !ok ==> nume == "" || persoanaContact == "" || telefon == "" || email == ""
  {
    !(nume == "" || persoanaContact == "" || telefon == "" || email == "")
  }

  function Name(c: Client): string { c.nume }

  /** All clients ordered by name, as the listing and the edit selector show them. */
  function ClientsByName(cs: seq<Client>): (r: seq<Client>)
    ensures multiset(r) == multiset(cs)
    ensures SortedBy(r, Name, false)
  {
    SortBy(cs, Name, false)
  }

  predicate NameMatches(c: Client, q: string) {
    ContainsIgnoringCase(c.nume, q)
  }

  /**
   * The listing for query `q`: every client for an empty query, otherwise
   * those whose name contains `q` ignoring case; ordered by name.
   */
  function SearchClients(cs: seq<Client>, q: string): (r: seq<Client>)
    ensures SortedBy(r, Name, false)
    ensures forall c :: c in r ==> c in cs && (q == "" || NameMatches(c, q))
    ensures forall c :: c in cs && (q == "" || NameMatches(c, q)) ==> c in r
  {
    if q == "" then ClientsByName(cs)
    else
      FilterMembers(cs, c => NameMatches(c, q));
      SortBy(Filter(cs, c => NameMatches(c, q)), Name, false)
  }
}

=== FILE: common.dfy ===
/**
 * Shared vocabulary of the print-shop model: optional values, results,
 * calendar dates, the ASCII case folding used by the searches, the
 * code-point order of strings used by the sorted listings, and a sort
 * proved correct once for every listing that needs one.
 */
module Common {

  datatype Option<T> = None | Some(value: T)

  datatype Result<T, E> = Ok(value: T) | Err(error: E)

  /** Python truthiness of a nullable text column: neither `None` nor `""`. */
  predicate Filled(o: Option<string>) {
    o.Some? && o.value != ""
  }

  // ---------------------------------------------------------------- dates

  /** A calendar date, as Python's `date`. */
  datatype Date = Date(year: int, month: int, day: int)

  predicate IsLeapYear(y: int) {
    (y % 4 == 0 && y % 100 != 0) || y % 400 == 0
  }

  /** Number of days of month `m` of year `y` (`calendar.monthrange(y, m)[1]`). */
  function DaysInMonth(y: int, m: int): (n: int)
    requires 1 <= m <= 12
    ensures 28 <= n <= 31
    ensures m == 2 ==> (n == 29 <==> IsLeapYear(y))
  {
    if m == 2 then (if IsLeapYear(y) then 29 else 28)
    else if m == 4 || m == 6 || m == 9 || m == 11 then 30
    else 31
  }

  predicate ValidDate(d: Date) {
    1 <= d.month <= 12 && 1 <= d.day <= DaysInMonth(d.year, d.month)
  }

  /** Chronological order of dates (`a <= b`). */
  predicate DateLe(a: Date, b: Date) {
    a.year < b.year
    || (a.year == b.year && a.month < b.month)
    || (a.year == b.year && a.month == b.month && a.day <= b.day)
  }

  /** `start <= d <= end`, both ends included, as the SQL filters of the pages. */
  predicate InPeriod(d: Date, start: Date, end: Date) {
    DateLe(start, d) && DateLe(d, end)
  }

  /** `d - timedelta(days=1)`. */
  function DayBefore(d: Date): (r: Date)
    requires ValidDate(d)
    ensures ValidDate(r) && DateLe(r, d) && r != d
    ensures d.day > 1 ==> r == d.(day := d.day - 1)
    ensures d.day == 1 && d.month > 1 ==> r == Date(d.year, d.month - 1, DaysInMonth(d.year, d.month - 1))
    ensures d.day == 1 && d.month == 1 ==> r == Date(d.year - 1, 12, 31)
  {
    if d.day > 1 then d.(day := d.day - 1)
    else if d.month > 1 then Date(d.year, d.month - 1, DaysInMonth(d.year, d.month - 1))
    else Date(d.year - 1, 12, 31)
  }

  // -------------------------------------------------------------- strings

  function LowerChar(c: char): (r: char)
    ensures 'A' <= c <= 'Z' ==> 'a' <= r <= 'z'
    ensures !('A' <= c <= 'Z') ==> r == c
  {
    if 'A' <= c <= 'Z' then (c as int + 32) as char else c
  }

  function UpperChar(c: char): (r: char)
    ensures 'a' <= c <= 'z' ==> 'A' <= r <= 'Z'
    ensures !('a' <= c <= 'z') ==> r == c
  {
    if 'a' <= c <= 'z' then (c as int - 32) as char else c
  }

  /** ASCII lower-casing (`str.lower` on the ASCII letters). */
  function Lower(s: string): (r: string)
    ensures |r| == |s|
    ensures forall i :: 0 <= i < |s| ==> r[i] == LowerChar(s[i])
  {
    if s == [] then [] else [LowerChar(s[0])] + Lower(s[1..])
  }

  /** ASCII upper-casing (`str.upper` on the ASCII letters). */
  function Upper(s: string): (r: string)
    ensures |r| == |s|
    ensures forall i :: 0 <= i < |s| ==> r[i] == UpperChar(s[i])
  {
    if s == [] then [] else [UpperChar(s[0])] + Upper(s[1..])
  }

  predicate OccursAt(s: string, q: string, i: int) {
    0 <= i && i + |q| <= |s| && s[i..i + |q|] == q
  }

  /** `q` is a substring of `s`: the SQL pattern `LIKE '%q%'`. */
  predicate Contains(s: string, q: string) {
    exists i :: 0 <= i <= |s| - |q| && OccursAt(s, q, i)
  }

  /** `s ILIKE '%q%'`, with ASCII case folding. */
  predicate ContainsIgnoringCase(s: string, q: string) {
    Contains(Lower(s), Lower(q))
  }

  // ------------------------------------------------------------ filtering

  /** The elements of `s` that satisfy `keep`, in their original order (a `WHERE` clause). */
  function Filter<T>(s: seq<T>, keep: T -> bool): (r: seq<T>)
    ensures |r| <= |s|
    ensures forall i :: 0 <= i < |r| ==> keep(r[i])
  {
    if s == [] then []
    else
      var init := Filter(s[..|s| - 1], keep);
      init + (if keep(s[|s| - 1]) then [s[|s| - 1]] else [])
  }

  /** The filter keeps exactly the elements of `s` that satisfy `keep`. */
  lemma {:induction false} FilterMembers<T>(s: seq<T>, keep: T -> bool)
    ensures forall i :: 0 <= i < |Filter(s, keep)| ==> Filter(s, keep)[i] in s
    ensures forall i :: 0 <= i < |s| && keep(s[i]) ==> s[i] in Filter(s, keep)
  {
    if s != [] {
      var init := s[..|s| - 1];
      FilterMembers(init, keep);
      assert forall i :: 0 <= i < |init| ==> init[i] == s[i];
    }
  }

  /** Filtering distributes over concatenation. */
  lemma {:induction false} FilterAppend<T>(a: seq<T>, b: seq<T>, keep: T -> bool)
    ensures Filter(a + b, keep) == Filter(a, keep) + Filter(b, keep)
    decreases |b|
  {
    if b == [] {
      assert a + b == a;
    } else {
      assert (a + b)[..|a + b| - 1] == a + b[..|b| - 1];
      FilterAppend(a, b[..|b| - 1], keep);
    }
  }

  /** Filtering one more element of a prefix appends it exactly when it is kept. */
  lemma FilterStep<T>(s: seq<T>, i: nat, keep: T -> bool)
    requires i < |s|
    ensures keep(s[i]) ==> Filter(s[..i + 1], keep) == Filter(s[..i], keep) + [s[i]]
    ensures !keep(s[i]) ==> Filter(s[..i + 1], keep) == Filter(s[..i], keep)
  {
    assert s[..i + 1][..i] == s[..i];
    assert Filter(s[..i], keep) + [] == Filter(s[..i], keep);
  }

  /** Filtering a list extended by one element extends the result exactly when the element is kept. */
  lemma FilterSnoc<T>(s: seq<T>, x: T, keep: T -> bool)
    ensures keep(x) ==> Filter(s + [x], keep) == Filter(s, keep) + [x]
    ensures !keep(x) ==> Filter(s + [x], keep) == Filter(s, keep)
  {
    assert (s + [x])[..|s|] == s;
    assert Filter(s, keep) + [] == Filter(s, keep);
  }

  /** Nothing is left when no element is kept. */
  lemma {:induction false} FilterNone<T>(s: seq<T>, keep: T -> bool)
    requires forall i :: 0 <= i < |s| ==> !keep(s[i])
    ensures Filter(s, keep) == []
  {
    if s != [] {
      var init, x := s[..|s| - 1], s[|s| - 1];
      assert s == init + [x];
      FilterNone(init, keep);
      FilterSnoc(init, x, keep);
    }
  }

  /** Everything is left when every element is kept. */
  lemma {:induction false} FilterAll<T>(s: seq<T>, keep: T -> bool)
    requires forall i :: 0 <= i < |s| ==> keep(s[i])
    ensures Filter(s, keep) == s
  {
    if s != [] {
      var init, x := s[..|s| - 1], s[|s| - 1];
      assert s == init + [x];
      FilterAll(init, keep);
      FilterSnoc(init, x, keep);
    }
  }

  // ---------------------------------------------------- string ordering

  /** Code-point lexicographic order of strings, as Python compares `str`. */
  predicate LexLe(a: string, b: string)
    decreases |a|
  {
    |a| == 0 || (|b| > 0 && (a[0] < b[0] || (a[0] == b[0] && LexLe(a[1..], b[1..]))))
  }

  lemma {:induction false} LexLeTotal(a: string, b: string)
    ensures LexLe(a, b) || LexLe(b, a)
    decreases |a|
  {
    if |a| > 0 && |b| > 0 && a[0] == b[0] {
      LexLeTotal(a[1..], b[1..]);
    }
  }

  lemma {:induction false} LexLeTransitive(a: string, b: string, c: string)
    requires LexLe(a, b) && LexLe(b, c)
    ensures LexLe(a, c)
    decreases |a|
  {
    if |a| > 0 && a[0] == b[0] && b[0] == c[0] {
      LexLeTransitive(a[1..], b[1..], c[1..]);
    }
  }

  /** `a` may be listed before `b`: ascending order, or descending when `desc`. */
  predicate KeyOrdered(a: string, b: string, desc: bool) {
    if desc then LexLe(b, a) else LexLe(a, b)
  }

  predicate SortedBy<T>(s: seq<T>, key: T -> string, desc: bool) {
    forall i, j :: 0 <= i < j < |s| ==> KeyOrdered(key(s[i]), key(s[j]), desc)
  }

  /** An element that may precede the head of a sorted list may precede all of it. */
  lemma ConsSorted<T>(x: T, s: seq<T>, key: T -> string, desc: bool)
    requires s != [] && SortedBy(s, key, desc) && KeyOrdered(key(x), key(s[0]), desc)
    ensures SortedBy([x] + s, key, desc)
  {
    var r := [x] + s;
    forall i, j | 0 <= i < j < |r| ensures KeyOrdered(key(r[i]), key(r[j]), desc) {
      if i == 0 && j > 1 {
        assert r[j] == s[j - 1];
        if desc {
          LexLeTransitive(key(r[j]), key(s[0]), key(x));
        } else {
          LexLeTransitive(key(x), key(s[0]), key(r[j]));
        }
      }
    }
  }

  /**
   * The head of a sorted list stays first when `x`, which may not precede
   * it, is inserted into its tail.
   */
  lemma HeadStaysFirst<T>(x: T, s: seq<T>, tail: seq<T>, key: T -> string, desc: bool)
    requires s != [] && SortedBy(s, key, desc) && !KeyOrdered(key(x), key(s[0]), desc)
    requires SortedBy(tail, key, desc) && multiset(tail) == multiset(s[1..]) + multiset{x}
    ensures SortedBy([s[0]] + tail, key, desc)
  {
    LexLeTotal(key(x), key(s[0]));
    forall j | 0 <= j < |tail| ensures KeyOrdered(key(s[0]), key(tail[j]), desc) {
      assert tail[j] in multiset(tail);
      if tail[j] != x {
        assert tail[j] in multiset(s[1..]);
        var k :| 0 <= k < |s[1..]| && s[1..][k] == tail[j];
        assert s[k + 1] == tail[j];
      }
    }
  }

  function InsertBy<T>(x: T, s: seq<T>, key: T -> string, desc: bool): (r: seq<T>)
    requires SortedBy(s, key, desc)
    ensures multiset(r) == multiset(s) + multiset{x}
    ensures SortedBy(r, key, desc)
  {
    if s == [] then [x]
    else if KeyOrdered(key(x), key(s[0]), desc) then
      ConsSorted(x, s, key, desc);
      [x] + s
    else
      var tail := InsertBy(x, s[1..], key, desc);
      assert s == [s[0]] + s[1..];
      HeadStaysFirst(x, s, tail, key, desc);
      [s[0]] + tail
  }

  /** The rows of `s` ordered by `key` (descending when `desc`): `ORDER BY` / `sorted`. */
  function SortBy<T>(s: seq<T>, key: T -> string, desc: bool): (r: seq<T>)
    ensures multiset(r) == multiset(s)
    ensures forall i :: 0 <= i < |r| ==> r[i] in s
    ensures forall i :: 0 <= i < |s| ==> s[i] in r
    ensures SortedBy(r, key, desc)
  {
    if s == [] then []
    else
      assert s == [s[0]] + s[1..];
      var r := InsertBy(s[0], SortBy(s[1..], key, desc), key, desc);
      SameMembers(r, s);
      SameMembers(s, r);
      r
  }

  /** Lists with the same elements, counted with multiplicity, have the same members. */
  lemma SameMembers<T>(a: seq<T>, b: seq<T>)
    requires multiset(a) == multiset(b)
    ensures forall i :: 0 <= i < |a| ==> a[i] in b
  {
    forall i | 0 <= i < |a| ensures a[i] in b {
      assert a[i] in multiset(a);
    }
  }
}

=== FILE: invoicing.dfy ===
/**
 * The rules of the invoicing page: the paper an order consumes, the
 * checks made before invoicing, what invoicing does to the order and to
 * the paper, the report windows and the "total invoiced" sum. The submit
 * itself is `ShopState.Shop.Invoice`.
 */
module Invoicing {
  import opened Common
  import opened SheetTables
  import opened PaperModel
  import opened OrderModel
  import OrderPage

  /** `indici.get(coala, 1)`: the table yield of a press sheet, 1 when the sheet is not in the table. */
  function IndexOrOne(indici: SheetIndices, coala: string): (k: int)
    ensures coala in indici ==> k == indici[coala]
    ensures coala !in indici ==> k == 1
    ensures PositiveIndices(indici) ==> k > 0
  {
    if coala in indici then indici[coala] else 1
  }

  /** Whether the order states a positive number of press sheets (`nr_coli and nr_coli > 0`). */
  predicate HasSheets(o: Order) {
    o.nrColi.Some? && o.nrColi.value > 0
  }

  /**
   * Stock sheets the order consumes: its press sheets divided by their
   * yield; nothing when the order states no press sheets.
   */
  function InvoiceConsumption(o: Order, indici: SheetIndices): (c: real)
    requires PositiveIndices(indici)
    ensures !HasSheets(o) ==> c == 0.0
    ensures HasSheets(o) ==> c > 0.0 && c * IndexOrOne(indici, o.coalaTipar) as real == o.nrColi.value as real
  {
    if HasSheets(o) then o.nrColi.value as real / IndexOrOne(indici, o.coalaTipar) as real else 0.0
  }

  /**
   * The stock check: with press sheets stated, the paper must exist and
   * hold at least the consumption; without, invoicing is allowed.
   */
  predicate StockSufficient(o: Order, paper: Option<Paper>, indici: SheetIndices)
    requires PositiveIndices(indici)
  {
    HasSheets(o) ==> paper.Some? && InvoiceConsumption(o, indici) <= paper.value.stoc
  }

  datatype InvoiceError = PriceNotPositive | InsufficientStock

  /**
   * The submit's verdict: the price is checked first, then the stock; on
   * success the consumption to debit.
   */
  function CheckInvoice(pret: real, o: Order, paper: Option<Paper>, indici: SheetIndices): (r: Result<real, InvoiceError>)
    requires PositiveIndices(indici)
    ensures r.Ok? <==> pret > 0.0 && StockSufficient(o, paper, indici)
    ensures pret <= 0.0 ==> r == Err(PriceNotPositive)
    ensures pret > 0.0 && !StockSufficient(o, paper, indici) ==> r == Err(InsufficientStock)
    ensures r.Ok? ==> r.value == InvoiceConsumption(o, indici)
    ensures r.Ok? && paper.Some? && paper.value.stoc >= 0.0 ==> 0.0 <= r.value <= paper.value.stoc
  {
    if pret <= 0.0 then Err(PriceNotPositive)
    else if !StockSufficient(o, paper, indici) then Err(InsufficientStock)
    else Ok(InvoiceConsumption(o, indici))
  }

  /** The order once invoiced: the entered price and the invoiced flag, nothing else changed. */
  function InvoicedOrder(o: Order, pret: real): (r: Order)
    ensures r.facturata && r.pret == Some(pret)
    ensures r.(pret := o.pret, facturata := o.facturata) == o
  {
    o.(pret := Some(pret), facturata := true)
  }

  /** The paper once the consumption is debited; a zero consumption leaves it as it was. */
  function DebitedPaper(p: Paper, consum: real): (r: Paper)
    ensures consum > 0.0 ==> r == WithStock(p, p.stoc - consum)
    ensures consum <= 0.0 ==> r == p
  {
    if consum > 0.0 then WithStock(p, p.stoc - consum) else p
  }

  /**
   * A successful invoice keeps the paper's ledger invariant: the stock
   * drops by exactly the consumption and does not become negative, and
   * the weight matches the new stock.
   */
  lemma InvoiceKeepsStockOk(pret: real, o: Order, p: Paper, indici: SheetIndices)
    requires PositiveIndices(indici) && StockOk(p)
    requires CheckInvoice(pret, o, Some(p), indici).Ok?
    ensures StockOk(DebitedPaper(p, CheckInvoice(pret, o, Some(p), indici).value))
    ensures DebitedPaper(p, CheckInvoice(pret, o, Some(p), indici).value).stoc
         == p.stoc - InvoiceConsumption(o, indici)
  {
  }

  /**
   * The flat table used to debit and the per-format table used for the
   * large-sheet count at order entry can disagree: 72 SRA4 press sheets
   * on "70 x 100" paper are counted as 8 large sheets when the order is
   * entered but debited as 9 sheets when it is invoiced.
   */
  lemma EntryCountAndDebitDiffer(o: Order)
    requires o.nrColi == Some(72) && o.coalaTipar == "SRA4 – 225 x 320 mm"
    ensures OrderPage.ColiMari(72, Sheets70x100[o.coalaTipar]) == Some(8.0)
    ensures PositiveIndices(DefaultIndiciCoala) && InvoiceConsumption(o, DefaultIndiciCoala) == 9.0
  {
    Sra4YieldsDisagree();
    BuiltInIndicesPositive();
  }

  // ------------------------------------------------------- report windows

  /** The periods the invoiced-orders report offers. */
  datatype ReportPeriod = CurrentMonth | PreviousMonth | AllInvoiced

  /** Year and month of the month before the month of `today`. */
  function MonthBefore(today: Date): (r: (int, int))
    requires ValidDate(today)
    ensures 1 <= r.1 <= 12
    ensures today.month == 1 ==> r == (today.year - 1, 12)
    ensures today.month > 1 ==> r == (today.year, today.month - 1)
  {
    if today.month == 1 then (today.year - 1, 12) else (today.year, today.month - 1)
  }

  /**
   * The dates the report keeps for `period` on day `today`: from the
   * first of the month to today; the whole previous month; or no bound.
   */
  function ReportWindow(period: ReportPeriod, today: Date): (w: Option<(Date, Date)>)
    requires ValidDate(today)
    ensures period == AllInvoiced <==> w.None?
    ensures period == CurrentMonth ==> w == Some((Date(today.year, today.month, 1), today))
    ensures period == PreviousMonth ==>
      var (y, m) := MonthBefore(today);
      w == Some((Date(y, m, 1), Date(y, m, DaysInMonth(y, m))))
  {
    match period
    case CurrentMonth => Some((Date(today.year, today.month, 1), today))
    case PreviousMonth =>
      var (y, m) := MonthBefore(today);
      var end := if m == 12 then Date(y, 12, 31) else DayBefore(Date(today.year, today.month, 1));
      Some((Date(y, m, 1), end))
    case AllInvoiced => None
  }

  /** An order the report shows: invoiced, of a known client (inner join), dated in the window. */
  predicate Reported(o: Order, window: Option<(Date, Date)>, clientIds: set<int>) {
    o.facturata && o.beneficiarId in clientIds
    && (window.Some? ==> InPeriod(o.data, window.value.0, window.value.1))
  }

  /** `Reported` as a filter. */
  function ReportedBy(window: Option<(Date, Date)>, clientIds: set<int>): Order -> bool {
    o => Reported(o, window, clientIds)
  }

  /** "Total facturat": the sum of the reported orders' prices, a missing price counting as 0. */
  method TotalInvoiced(orders: seq<Order>, window: Option<(Date, Date)>, clientIds: set<int>) returns (total: real)
    ensures total == TotalPrice(Filter(orders, ReportedBy(window, clientIds)))
  {
    var comenzi := Filter(orders, ReportedBy(window, clientIds));
    total := 0.0;
    for i := 0 to |comenzi|
      invariant total == TotalPrice(comenzi[..i])
    {
      assert comenzi[..i + 1] == comenzi[..i] + [comenzi[i]];
      TotalPriceSnoc(comenzi[..i], comenzi[i]);
      total := total + PriceOrZero(comenzi[i]);
    }
    assert comenzi[..|comenzi|] == comenzi;
  }
}

=== FILE: migration.dfy ===
/**
 * The v2.0 schema migration: the per-row UPDATE mappings of the paper
 * and order tables (raw-material FSC split, finished-product FSC
 * certification, press-sheet counts), the add-the-column-if-absent loops
 * and the guard that records the migration once in its history table.
 * A table is a sequence of rows; a schema is the list of its column names.
 */
module Migration {
  import opened Common

  // ------------------------------------------------------------ paper rows

  /** The FSC columns of a paper row, before (`codFsc`, `certificareFsc`) and after the split. */
  datatype PaperRow = PaperRow(
    codFsc: Option<string>,
    certificareFsc: Option<string>,
    fscMateriePrima: bool,
    codFscMateriePrima: Option<string>,
    certificareFscMateriePrima: Option<string>)

  /** The code every legacy FSC code is mapped to, "FSC-C…" codes and others alike. */
  const RawMaterialCode: string := "P 2.1"

  /** `cod LIKE 'FSC-C%'`. */
  predicate IsChainOfCustodyCode(cod: string) {
    |cod| >= 5 && cod[..5] == "FSC-C"
  }

  /**
   * One paper row through the migration: the UPDATE, then the drop of the
   * two legacy columns. Rows with neither legacy column set are not
   * touched by the UPDATE; the others get the FSC flag when the legacy
   * code is filled in, the raw-material code for a filled-in legacy code,
   * and the legacy certification. Afterwards the legacy columns are gone,
   * which a row shows as both being null.
   */
  function MigratePaperRow(r: PaperRow): (m: PaperRow)
    ensures m.codFsc.None? && m.certificareFsc.None?
    ensures r.codFsc.None? && r.certificareFsc.None? ==> m == r
    ensures r.codFsc.Some? || r.certificareFsc.Some? ==>
      && (m.fscMateriePrima <==> Filled(r.codFsc))
      && (m.codFscMateriePrima.Some? <==> m.fscMateriePrima)
      && (m.codFscMateriePrima.Some? ==> m.codFscMateriePrima.value == RawMaterialCode)
      && m.certificareFscMateriePrima == r.certificareFsc
  {
    var updated :=
      if r.codFsc.Some? || r.certificareFsc.Some? then
        var filled := r.codFsc.Some? && r.codFsc.value != "";
        r.(fscMateriePrima := filled,
           codFscMateriePrima :=
             if filled then (if IsChainOfCustodyCode(r.codFsc.value) then Some(RawMaterialCode) else Some(RawMaterialCode))
             else None,
           certificareFscMateriePrima := r.certificareFsc)
      else r;
    updated.(codFsc := None, certificareFsc := None)
  }

  /** The migrated paper rows: each row by the UPDATE and the drop. */
  function MigratePapers(rows: seq<PaperRow>): (m: seq<PaperRow>)
    ensures |m| == |rows| && forall i :: 0 <= i < |rows| ==> m[i] == MigratePaperRow(rows[i])
  {
    if rows == [] then [] else [MigratePaperRow(rows[0])] + MigratePapers(rows[1..])
  }

  /** Columns the paper table gains for the raw-material FSC split. */
  const PaperFscColumns: seq<string> := ["fsc_materie_prima", "cod_fsc_materie_prima", "certificare_fsc_materie_prima"]

  /** The legacy FSC columns of the paper table, dropped once their data is moved. */
  const LegacyPaperColumns: seq<string> := ["cod_fsc", "certificare_fsc"]

  /** The guard of the data move: both legacy columns exist. */
  predicate HasLegacyColumns(schema: seq<string>) {
    "cod_fsc" in schema && "certificare_fsc" in schema
  }

  /** The schema after `DROP COLUMN IF EXISTS` of each of `drop`. */
  function Without(schema: seq<string>, drop: seq<string>): (r: seq<string>)
    ensures forall c :: c in r <==> c in schema && c !in drop
  {
    if schema == [] then []
    else (if schema[0] in drop then [] else [schema[0]]) + Without(schema[1..], drop)
  }

  /**
   * The migration of the paper table: the three split columns are added
   * when absent; then, only when both legacy columns exist, every row is
   * migrated and the legacy columns are dropped. Otherwise the rows stay.
   */
  function MigratePaperTable(schema: seq<string>, rows: seq<PaperRow>): (t: (seq<string>, seq<PaperRow>))
    ensures forall c :: c in t.0 <==>
      (c in schema || c in PaperFscColumns) && !(HasLegacyColumns(schema) && c in LegacyPaperColumns)
    ensures HasLegacyColumns(schema) ==> t.1 == MigratePapers(rows)
    ensures !HasLegacyColumns(schema) ==> t.1 == rows
  {
    var s := WithColumns(schema, PaperFscColumns);
    WithColumnsContents(schema, PaperFscColumns);
    assert HasLegacyColumns(s) == HasLegacyColumns(schema);
    if HasLegacyColumns(s) then (Without(s, LegacyPaperColumns), MigratePapers(rows)) else (s, rows)
  }

  /**
   * Running the paper migration a second time changes nothing: the split
   * columns are there and, the legacy columns being gone or never both
   * present, the data move does not run again.
   */
  lemma MigratePaperTableIdempotent(schema: seq<string>, rows: seq<PaperRow>)
    ensures MigratePaperTable(MigratePaperTable(schema, rows).0, MigratePaperTable(schema, rows).1)
         == MigratePaperTable(schema, rows)
  {
    var t := MigratePaperTable(schema, rows);
    WithColumnsContents(schema, PaperFscColumns);
    assert !HasLegacyColumns(t.0);
    WithColumnsPresent(t.0, PaperFscColumns);
    if !HasLegacyColumns(schema) {
      WithColumnsIdempotent(schema, PaperFscColumns);
    }
  }

  // ------------------------------------------------------------ order rows

  /** The columns of an order row the migration reads or writes. */
  datatype OrderRow = OrderRow(
    fsc: Option<bool>,
    certificareFscProdus: Option<bool>,
    codFscProdus: Option<string>,
    tipCertificareFscProdus: Option<string>,
    tiraj: int,
    exPeCoala: int,
    nrColiTipar: Option<int>,
    coliPrisoase: int,
    totalColi: Option<int>)

  const ProductCode: string := "P 8.4"
  const ProductCertification: string := "Advertising materials"

  /**
   * The finished-product FSC UPDATE of one order row: certified exactly
   * when the legacy flag is true (a missing flag counting as false), with
   * the product code and certification type exactly then.
   */
  function MigrateOrderFsc(r: OrderRow): (m: OrderRow)
    ensures m.certificareFscProdus == Some(r.fsc == Some(true))
    ensures m.codFscProdus.Some? <==> r.fsc == Some(true)
    ensures m.tipCertificareFscProdus.Some? <==> r.fsc == Some(true)
    ensures r.fsc == Some(true) ==> m.codFscProdus == Some(ProductCode) && m.tipCertificareFscProdus == Some(ProductCertification)
    ensures m.(certificareFscProdus := r.certificareFscProdus, codFscProdus := r.codFscProdus, tipCertificareFscProdus := r.tipCertificareFscProdus) == r
  {
    var certified := match r.fsc case Some(b) => b case None => false;
    r.(certificareFscProdus := Some(certified),
       codFscProdus := if r.fsc == Some(true) then Some(ProductCode) else None,
       tipCertificareFscProdus := if r.fsc == Some(true) then Some(ProductCertification) else None)
  }

  /** The default for rows still without certification: not certified, legacy flag false. */
  function DefaultMissingFsc(r: OrderRow): (m: OrderRow)
    ensures r.certificareFscProdus.Some? ==> m == r
    ensures r.certificareFscProdus.None? ==> m == r.(certificareFscProdus := Some(false), fsc := Some(false))
  {
    if r.certificareFscProdus.None? then r.(certificareFscProdus := Some(false), fsc := Some(false)) else r
  }

  /** `CEIL(a / b)` for a positive divisor. */
  function CeilDiv(a: int, b: int): (q: int)
    requires b > 0
    ensures (q - 1) * b < a <= q * b
  {
    if a % b == 0 then a / b else a / b + 1
  }

  /**
   * The press-sheet UPDATE of one order row: a row with no press-sheet
   * count, a positive run and a positive number of copies per sheet gets
   * the run over the copies, rounded up, and that count plus the spare
   * sheets as its total.
   */
  function ComputeSheets(r: OrderRow): (m: OrderRow)
    ensures r.nrColiTipar.None? && r.tiraj > 0 && r.exPeCoala > 0 ==>
      && m.nrColiTipar.Some?
      && (m.nrColiTipar.value - 1) * r.exPeCoala < r.tiraj <= m.nrColiTipar.value * r.exPeCoala
      && m.totalColi == Some(m.nrColiTipar.value + r.coliPrisoase)
      && m.(nrColiTipar := r.nrColiTipar, totalColi := r.totalColi) == r
    ensures !(r.nrColiTipar.None? && r.tiraj > 0 && r.exPeCoala > 0) ==> m == r
  {
    if r.nrColiTipar.None? && r.tiraj > 0 && r.exPeCoala > 0 then
      var n := CeilDiv(r.tiraj, r.exPeCoala);
      r.(nrColiTipar := Some(n), totalColi := Some(n + r.coliPrisoase))
    else r
  }

  /** The three order UPDATEs, in the order the migration runs them. */
  function MigrateOrderRow(r: OrderRow): OrderRow {
    ComputeSheets(DefaultMissingFsc(MigrateOrderFsc(r)))
  }

  /** The migrated order table: each row by the three UPDATEs. */
  function MigrateOrders(rows: seq<OrderRow>): (m: seq<OrderRow>)
    ensures |m| == |rows| && forall i :: 0 <= i < |rows| ==> m[i] == MigrateOrderRow(rows[i])
  {
    if rows == [] then [] else [MigrateOrderRow(rows[0])] + MigrateOrders(rows[1..])
  }

  /** After the product FSC UPDATE every row is certified or not, so the default UPDATE finds nothing. */
  lemma DefaultAfterFscChangesNothing(r: OrderRow)
    ensures DefaultMissingFsc(MigrateOrderFsc(r)) == MigrateOrderFsc(r)
  {
  }

  /** Re-running the press-sheet UPDATE changes nothing: it only fills rows still without a count. */
  lemma ComputeSheetsIdempotent(r: OrderRow)
    ensures ComputeSheets(ComputeSheets(r)) == ComputeSheets(r)
  {
  }

  /** Re-running the order migration on migrated rows changes nothing. */
  lemma MigrateOrdersIdempotent(rows: seq<OrderRow>)
    ensures MigrateOrders(MigrateOrders(rows)) == MigrateOrders(rows)
  {
    forall i | 0 <= i < |rows|
      ensures MigrateOrderRow(MigrateOrderRow(rows[i])) == MigrateOrderRow(rows[i])
    {
      var r := rows[i];
      DefaultAfterFscChangesNothing(r);
      var f := MigrateOrderFsc(r);
      var s := ComputeSheets(f);
      assert MigrateOrderFsc(s) == s;
      DefaultAfterFscChangesNothing(s);
      ComputeSheetsIdempotent(f);
    }
  }

  // ---------------------------------------------------------------- columns

  /** Columns the order table gains for the press-sheet count. */
  const OrderSheetColumns: seq<string> := ["ex_pe_coala", "nr_coli_tipar", "coli_prisoase", "total_coli"]

  /** Columns the order table gains for the finished-product FSC certification. */
  const OrderFscColumns: seq<string> := ["certificare_fsc_produs", "cod_fsc_produs", "tip_certificare_fsc_produs"]

  /** Columns the order table gains for the finishing options. */
  const OrderFinishingColumns: seq<string> :=
    ["capsat", "colturi_rotunde", "perfor", "spiralare", "stantare", "lipire", "codita_wobbler"]

  /** The schema after adding, one by one and in order, each of `columns` not yet present. */
  function WithColumns(schema: seq<string>, columns: seq<string>): seq<string> {
    if columns == [] then schema
    else
      var before := WithColumns(schema, columns[..|columns| - 1]);
      var c := columns[|columns| - 1];
      if c in before then before else before + [c]
  }

  /** The add-if-absent loop: each column is added only when the table lacks it. */
  method AddMissingColumns(schema: seq<string>, columns: seq<string>) returns (result: seq<string>)
    ensures result == WithColumns(schema, columns)
  {
    result := schema;
    for i := 0 to |columns|
      invariant result == WithColumns(schema, columns[..i])
    {
      assert columns[..i + 1][..i] == columns[..i];
      if columns[i] !in result {
        result := result + [columns[i]];
      }
    }
    assert columns[..|columns|] == columns;
  }

  /**
   * Adding columns keeps the existing schema as a prefix, ends with every
   * wanted column present and adds nothing else.
   */
  lemma {:induction false} WithColumnsContents(schema: seq<string>, columns: seq<string>)
    ensures |WithColumns(schema, columns)| >= |schema|
    ensures WithColumns(schema, columns)[..|schema|] == schema
    ensures forall c :: c in WithColumns(schema, columns) <==> c in schema || c in columns
  {
    if columns != [] {
      var init := columns[..|columns| - 1];
      WithColumnsContents(schema, init);
      assert columns == init + [columns[|columns| - 1]];
    }
  }

  /** No column name occurs twice. */
  predicate Distinct(schema: seq<string>) {
    forall i, j :: 0 <= i < j < |schema| ==> schema[i] != schema[j]
  }

  /** Without duplicate names before, there are none after. */
  lemma {:induction false} WithColumnsDistinct(schema: seq<string>, columns: seq<string>)
    requires Distinct(schema)
    ensures Distinct(WithColumns(schema, columns))
  {
    if columns != [] {
      var before := WithColumns(schema, columns[..|columns| - 1]);
      WithColumnsDistinct(schema, columns[..|columns| - 1]);
      var c := columns[|columns| - 1];
      if c !in before {
        var r := before + [c];
        forall i, j | 0 <= i < j < |r| ensures r[i] != r[j] {
          assert r[i] == before[i];
          if j == |before| {
            assert r[j] == c && before[i] in before;
          }
        }
      }
    }
  }

  /** A schema that already has every wanted column is left as it is. */
  lemma {:induction false} WithColumnsPresent(schema: seq<string>, columns: seq<string>)
    requires forall i :: 0 <= i < |columns| ==> columns[i] in schema
    ensures WithColumns(schema, columns) == schema
  {
    if columns != [] {
      WithColumnsPresent(schema, columns[..|columns| - 1]);
    }
  }

  /** Re-running the add-if-absent loop leaves the schema unchanged. */
  lemma WithColumnsIdempotent(schema: seq<string>, columns: seq<string>)
    ensures WithColumns(WithColumns(schema, columns), columns) == WithColumns(schema, columns)
  {
    WithColumnsContents(schema, columns);
    WithColumnsPresent(WithColumns(schema, columns), columns);
  }

  /**
   * The order table's schema after the three add-if-absent loops, for the
   * press-sheet count, the finished-product FSC certification and the
   * finishing options, in that order: the old columns stay first, and
   * afterwards the table has exactly its old columns and the new ones.
   */
  function MigrateOrderSchema(schema: seq<string>): (r: seq<string>)
    ensures |r| >= |schema| && r[..|schema|] == schema
    ensures forall c :: c in r <==>
      c in schema || c in OrderSheetColumns || c in OrderFscColumns || c in OrderFinishingColumns
  {
    var s1 := WithColumns(schema, OrderSheetColumns);
    var s2 := WithColumns(s1, OrderFscColumns);
    WithColumnsContents(schema, OrderSheetColumns);
    WithColumnsContents(s1, OrderFscColumns);
    WithColumnsContents(s2, OrderFinishingColumns);
    WithColumns(s2, OrderFinishingColumns)
  }

  // ---------------------------------------------------------------- history

  const MigrationVersion: string := "v2.0"

  /** Records the migration in the history unless a row of that version is already there. */
  function RecordMigration(history: seq<string>): (h: seq<string>)
    ensures MigrationVersion in h
    ensures |history| <= |h| <= |history| + 1 && h[..|history|] == history
    ensures MigrationVersion in history <==> h == history
  {
    if MigrationVersion in history then history else history + [MigrationVersion]
  }

  /** The number of history rows of version `v`. */
  function CountVersion(history: seq<string>, v: string): nat {
    if history == [] then 0
    else CountVersion(history[..|history| - 1], v) + (if history[|history| - 1] == v then 1 else 0)
  }

  /** Recording twice is recording once. */
  lemma RecordMigrationIdempotent(history: seq<string>)
    ensures RecordMigration(RecordMigration(history)) == RecordMigration(history)
  {
  }

  /** A history without the version gains exactly one row of it. */
  lemma {:induction false} RecordMigrationOnce(history: seq<string>)
    requires CountVersion(history, MigrationVersion) == 0
    ensures CountVersion(RecordMigration(history), MigrationVersion) == 1
  {
    var h := history + [MigrationVersion];
    assert h[..|h| - 1] == history;
    assert MigrationVersion !in history by {
      CountZeroAbsent(history, MigrationVersion);
    }
  }

  lemma {:induction false} CountZeroAbsent(history: seq<string>, v: string)
    requires CountVersion(history, v) == 0
    ensures v !in history
  {
    if history != [] {
      CountZeroAbsent(history[..|history| - 1], v);
      assert history == history[..|history| - 1] + [history[|history| - 1]];
    }
  }
}

=== FILE: order_model.dfy ===
/**
 * The print order (`Comanda`): its columns, its weight formula, and the
 * price total every report takes over a list of orders.
 */
module OrderModel {
  import opened Common

  /** The finishing columns of an order, kept together because no rule reads them. */
  datatype Finishing = Finishing(
    plastifiere: Option<string>,
    big: bool,
    nrBiguri: Option<int>,
    laminare: bool,
    formatLaminare: Option<string>,
    numarLaminari: Option<int>,
    taiereCutter: bool,
    detaliiFinisare: string,
    detaliiLivrare: string)

  /**
   * One order. `numar` is the order number shown to users (unique);
   * `latime`/`inaltime` are in mm; `greutate` is the job weight in g;
   * `pret` is absent until the order is invoiced. The only lifecycle
   * state is `facturata`.
   */
  datatype Order = Order(
    numar: int,
    echipament: string,
    data: Date,
    beneficiarId: int,
    lucrare: string,
    poClient: string,
    tiraj: int,
    descriere: string,
    latime: real,
    inaltime: real,
    nrPagini: int,
    indiceCorectie: real,
    fsc: bool,
    codFscOutput: Option<string>,
    certificareFscOutput: Option<string>,
    hartieId: int,
    coalaTipar: string,
    nrCulori: string,
    nrColi: Option<int>,
    coliMari: Option<real>,
    greutate: Option<real>,
    finisare: Finishing,
    pret: Option<real>,
    facturata: bool)

  /** Weight in g of a run: `tiraj*latime*inaltime*nr_pagini*indice_corectie / (2*10^6)`. */
  function JobWeight(tiraj: int, latime: real, inaltime: real, nrPagini: int, indiceCorectie: real): (w: real)
    ensures tiraj > 0 && latime > 0.0 && inaltime > 0.0 && nrPagini > 0 && indiceCorectie > 0.0 ==> w > 0.0
    ensures tiraj == 0 ==> w == 0.0
  {
    tiraj as real * latime * inaltime * nrPagini as real * indiceCorectie / 2000000.0
  }

  /** `Comanda.calculeaza_greutate`. */
  function CalculeazaGreutate(o: Order): real {
    JobWeight(o.tiraj, o.latime, o.inaltime, o.nrPagini, o.indiceCorectie)
  }

  /** The job weight is linear in the run length: `k` times the run weighs `k` times as much. */
  lemma JobWeightLinear(k: int, tiraj: int, latime: real, inaltime: real, nrPagini: int, indiceCorectie: real)
    ensures JobWeight(k * tiraj, latime, inaltime, nrPagini, indiceCorectie)
         == k as real * JobWeight(tiraj, latime, inaltime, nrPagini, indiceCorectie)
  {
    var rest := latime * inaltime * nrPagini as real * indiceCorectie;
    assert (k * tiraj) as real == k as real * tiraj as real;
    assert (k as real * tiraj as real) * rest == k as real * (tiraj as real * rest);
  }

  /** `pret or 0`: the price, counting a missing price as 0. */
  function PriceOrZero(o: Order): (v: real)
    ensures o.pret.None? ==> v == 0.0
    ensures o.pret.Some? ==> v == o.pret.value
  {
    match o.pret
    case None => 0.0
    case Some(p) => p
  }

  /** Sum of the prices of `os`, a missing price counting as 0, added in list order. */
  function TotalPrice(os: seq<Order>): real
  {
    if os == [] then 0.0 else TotalPrice(os[..|os| - 1]) + PriceOrZero(os[|os| - 1])
  }

  /** Appending one order adds its price (or 0) to the total. */
  lemma TotalPriceSnoc(a: seq<Order>, o: Order)
    ensures TotalPrice(a + [o]) == TotalPrice(a) + PriceOrZero(o)
  {
    assert (a + [o])[..|a|] == a;
  }

  /** The total of a concatenation is the sum of the totals of its parts. */
  lemma {:induction false} TotalPriceAppend(a: seq<Order>, b: seq<Order>)
    ensures TotalPrice(a + b) == TotalPrice(a) + TotalPrice(b)
    decreases |b|
  {
    if b != [] {
      assert (a + b)[..|a + b| - 1] == a + b[..|b| - 1];
      TotalPriceAppend(a, b[..|b| - 1]);
    } else {
      assert a + b == a;
    }
  }

  /** With every price non-negative (or absent), so is the total. */
  lemma {:induction false} TotalPriceNonNegative(os: seq<Order>)
    requires forall i :: 0 <= i < |os| ==> PriceOrZero(os[i]) >= 0.0
    ensures TotalPrice(os) >= 0.0
  {
    if os != [] {
      TotalPriceNonNegative(os[..|os| - 1]);
    }
  }

  /** The order numbers of `os` are pairwise distinct (`numar_comanda` is unique). */
  predicate UniqueNumbers(os: seq<Order>) {
    forall i, j :: 0 <= i < j < |os| ==> os[i].numar != os[j].numar
  }

  /** The largest order number of a non-empty list. */
  function MaxNumber(os: seq<Order>): (m: int)
    requires os != []
    ensures forall i :: 0 <= i < |os| ==> os[i].numar <= m
    ensures exists i :: 0 <= i < |os| && os[i].numar == m
  {
    if |os| == 1 then os[0].numar
    else
      var m0 := MaxNumber(os[..|os| - 1]);
      var last := os[|os| - 1].numar;
      assert forall i :: 0 <= i < |os| - 1 ==> os[i] == os[..|os| - 1][i];
      if last > m0 then last else m0
  }
}

=== FILE: order_page.dfy ===
/**
 * The rules of the order page: numbering, the press sheets offered for a
 * paper, the large-sheet count, the validation chains of adding and of
 * editing an order, and the order records those two forms produce. The
 * state changes themselves are methods of `ShopState.Shop`.
 */
module OrderPage {
  import opened Common
  import opened SheetTables
  import opened PaperModel
  import opened OrderModel

  /** Output product codes an FSC order may carry, with their certification text. */
  const FscOutputCodes: map<string, string> := map[
      "P 7.1" := "Notebooks",
      "P 7.5" := "Post and greeting cards",
      "P 7.6" := "Envelopes",
      "P 7.7" := "Gummed paper",
      "P 7.8" := "Adhesive labels",
      "P 8.4" := "Advertising materials",
      "P 8.5" := "Business card",
      "P 8.6" := "Calendars, diaries and organisers"
    ]

  /** The certification shown for a chosen output code (none when no code is chosen). */
  function CertificationFor(cod: Option<string>): (r: Option<string>)
    ensures cod.None? ==> r.None?
    ensures cod.Some? && cod.value in FscOutputCodes ==> r == Some(FscOutputCodes[cod.value])
  {
    match cod
    case None => None
    case Some(c) => if c in FscOutputCodes then Some(FscOutputCodes[c]) else None
  }

  /** Every output code comes with a non-empty certification text. */
  lemma CertificationsFilled(c: string)
    requires c in FscOutputCodes
    ensures Filled(CertificationFor(Some(c)))
  {
  }

  /** The number a new order gets: 1 for the first order, otherwise the largest number plus one. */
  function NextOrderNumber(os: seq<Order>): (n: int)
    ensures os == [] ==> n == 1
    ensures forall i :: 0 <= i < |os| ==> os[i].numar < n
    ensures os != [] ==> exists i :: 0 <= i < |os| && os[i].numar == n - 1
  {
    if os == [] then 1 else MaxNumber(os) + 1
  }

  /** A list with unique numbers stays so when an order with the next number is appended. */
  lemma NextNumberKeepsUnique(os: seq<Order>, o: Order)
    requires UniqueNumbers(os) && o.numar == NextOrderNumber(os)
    ensures UniqueNumbers(os + [o])
  {
    var s := os + [o];
    forall i, j | 0 <= i < j < |s| ensures s[i].numar != s[j].numar {
      if j == |os| {
        assert s[i] == os[i];
      } else {
        assert s[i] == os[i] && s[j] == os[j];
      }
    }
  }

  /** The press sheets offered for paper of format `format`, with their yields; none for an unknown format. */
  function OfferedSheets(compat: CompatTable, format: string): (r: SheetIndices)
    ensures format in compat ==> r == compat[format]
    ensures format !in compat ==> r == map[]
    ensures PositiveCompat(compat) ==> PositiveIndices(r)
  {
    if format in compat then compat[format] else map[]
  }

  /**
   * The yield used by the add form: the chosen sheet's table value, or 1
   * when no sheet is offered or the choice is not in the table.
   */
  function CreationSheetIndex(offered: SheetIndices, coala: Option<string>): (k: int)
    ensures coala.Some? && coala.value in offered ==> k == offered[coala.value]
    ensures !(coala.Some? && coala.value in offered) ==> k == 1
    ensures PositiveIndices(offered) ==> k > 0
  {
    if offered == map[] then 1
    else if coala.Some? && coala.value in offered then offered[coala.value]
    else 1
  }

  /** Sheet name stored by the edit form when the paper format has no compatible sheet. */
  const NoCompatibleSheet: string := "Selectează hârtie compatibilă"

  /**
   * The sheet and yield used by the edit form: with no compatible sheet,
   * a placeholder name and yield 0; otherwise the chosen sheet and its
   * table value (1 when not in the table).
   */
  function EditSheet(offered: SheetIndices, chosen: string): (r: (string, int))
    ensures offered == map[] ==> r == (NoCompatibleSheet, 0)
    ensures offered != map[] ==> r.0 == chosen && r.1 == (if chosen in offered then offered[chosen] else 1)
    ensures PositiveIndices(offered) ==> (r.1 == 0 <==> offered == map[])
  {
    if offered == map[] then (NoCompatibleSheet, 0)
    else (chosen, if chosen in offered then offered[chosen] else 1)
  }

  /**
   * Large (stock) sheets needed for `nrColi` press sheets at `index` press
   * sheets per stock sheet; absent when no press sheets are given.
   */
  function ColiMari(nrColi: int, index: int): (r: Option<real>)
    requires nrColi > 0 ==> index != 0
    ensures r.Some? <==> nrColi > 0
    ensures r.Some? ==> r.value * index as real == nrColi as real
    ensures r.Some? && index > 0 ==> r.value > 0.0
  {
    if nrColi > 0 then Some(nrColi as real / index as real) else None
  }

  /** What the user entered on the add or edit form. */
  datatype OrderForm = OrderForm(
    echipament: string,
    data: Date,
    beneficiarId: int,
    lucrare: string,
    poClient: string,
    tiraj: int,
    descriere: string,
    latime: real,
    inaltime: real,
    nrPagini: int,
    indiceCorectie: real,
    fsc: bool,
    codFscOutput: Option<string>,
    hartieId: int,
    coalaTipar: Option<string>,
    nrCulori: string,
    nrColi: int,
    finisare: Finishing)

  /** The checks of the add form, in the order they are made. */
  datatype OrderCheck = MissingText | OddPages | MissingFscCode | PaperNotFsc | IncompatibleSheet

  function Rank(c: OrderCheck): nat {
    match c
    case MissingText => 0
    case OddPages => 1
    case MissingFscCode => 2
    case PaperNotFsc => 3
    case IncompatibleSheet => 4
  }

  /** The checks that depend on the form alone; the edit form makes only these. */
  predicate FormFails(c: OrderCheck, f: OrderForm) {
    match c
    case MissingText => f.lucrare == "" || f.descriere == ""
    case OddPages => f.nrPagini % 2 != 0
    case MissingFscCode => f.fsc && (!Filled(f.codFscOutput) || !Filled(CertificationFor(f.codFscOutput)))
    case PaperNotFsc => false
    case IncompatibleSheet => false
  }

  /** Whether check `c` of the add form fails for the chosen paper and the sheets offered for it. */
  predicate Fails(c: OrderCheck, f: OrderForm, paper: Paper, offered: SheetIndices) {
    match c
    case PaperNotFsc => f.fsc && !Filled(paper.codFscIesire)
    case IncompatibleSheet => offered == map[] || f.coalaTipar.None? || f.coalaTipar.value !in offered
    case _ => FormFails(c, f)
  }

  /** The add form's verdict: nothing when every check passes, else the first check that fails. */
  function ValidateNewOrder(f: OrderForm, paper: Paper, offered: SheetIndices): (r: Option<OrderCheck>)
    ensures r.None? <==> forall c :: !Fails(c, f, paper, offered)
    ensures r.Some? ==> Fails(r.value, f, paper, offered)
    ensures r.Some? ==> forall c :: Rank(c) < Rank(r.value) ==> !Fails(c, f, paper, offered)
  {
    if f.lucrare == "" || f.descriere == "" then
      assert Fails(MissingText, f, paper, offered);
      Some(MissingText)
    else if f.nrPagini % 2 != 0 then
      assert Fails(OddPages, f, paper, offered);
      Some(OddPages)
    else if f.fsc && (!Filled(f.codFscOutput) || !Filled(CertificationFor(f.codFscOutput))) then
      assert Fails(MissingFscCode, f, paper, offered);
      Some(MissingFscCode)
    else if f.fsc && !Filled(paper.codFscIesire) then
      assert Fails(PaperNotFsc, f, paper, offered);
      Some(PaperNotFsc)
    else if offered == map[] || f.coalaTipar.None? || f.coalaTipar.value !in offered then
      assert Fails(IncompatibleSheet, f, paper, offered);
      Some(IncompatibleSheet)
    else None
  }

  /** The edit form's verdict: the first of the form-only checks that fails. */
  function ValidateOrderEdit(f: OrderForm): (r: Option<OrderCheck>)
    ensures r.None? <==> forall c :: !FormFails(c, f)
    ensures r.Some? ==> FormFails(r.value, f) && Rank(r.value) <= 2
    ensures r.Some? ==> forall c :: Rank(c) < Rank(r.value) ==> !FormFails(c, f)
  {
    if f.lucrare == "" || f.descriere == "" then
      assert FormFails(MissingText, f);
      Some(MissingText)
    else if f.nrPagini % 2 != 0 then
      assert FormFails(OddPages, f);
      Some(OddPages)
    else if f.fsc && (!Filled(f.codFscOutput) || !Filled(CertificationFor(f.codFscOutput))) then
      assert FormFails(MissingFscCode, f);
      Some(MissingFscCode)
    else None
  }

  /** Whatever the add form accepts, the edit form accepts too. */
  lemma EditAcceptsWhatAddAccepts(f: OrderForm, paper: Paper, offered: SheetIndices)
    requires ValidateNewOrder(f, paper, offered).None?
    ensures ValidateOrderEdit(f).None?
  {
    forall c ensures !FormFails(c, f) {
      assert !Fails(c, f, paper, offered);
    }
  }

  /**
   * The edit form does not re-check the sheet: a form the add page turns
   * down as incompatible passes the edit checks.
   */
  lemma EditSkipsSheetCheck(f: OrderForm, paper: Paper)
    requires f.lucrare != "" && f.descriere != "" && f.nrPagini % 2 == 0 && !f.fsc
    ensures ValidateNewOrder(f, paper, map[]) == Some(IncompatibleSheet)
    ensures ValidateOrderEdit(f).None?
  {
  }

  /**
   * On the add page the output code is only offered for a paper that can
   * produce FSC output, so the "paper cannot produce FSC" check is never
   * the one that fails: the missing code is reported first.
   */
  lemma PaperFscCheckShadowed(f: OrderForm, paper: Paper, offered: SheetIndices)
    requires f.codFscOutput.Some? ==> Filled(paper.codFscIesire)
    ensures ValidateNewOrder(f, paper, offered) != Some(PaperNotFsc)
  {
    if f.fsc && !Filled(paper.codFscIesire) {
      assert Fails(MissingFscCode, f, paper, offered);
    }
  }

  /**
   * On the edit page a chosen output code always comes from the code
   * table, so the FSC check of the edit form never fails.
   */
  lemma EditFscCheckNeverFails(f: OrderForm)
    requires f.fsc ==> f.codFscOutput.Some? && f.codFscOutput.value in FscOutputCodes && f.codFscOutput.value != ""
    ensures ValidateOrderEdit(f) != Some(MissingFscCode)
  {
    if f.fsc {
      CertificationsFilled(f.codFscOutput.value);
    }
  }

  /**
   * The order the add form creates with number `numar`: not invoiced, no
   * price, the job weight of its own dimensions and the large-sheet count
   * of its press sheets.
   */
  function NewOrder(numar: int, f: OrderForm, index: int): (o: Order)
    requires f.coalaTipar.Some?
    requires f.nrColi > 0 ==> index != 0
    ensures o.numar == numar && !o.facturata && o.pret.None?
    ensures o.greutate == Some(OrderModel.CalculeazaGreutate(o))
    ensures o.coliMari == ColiMari(f.nrColi, index) && o.nrColi == Some(f.nrColi)
    ensures o.coalaTipar == f.coalaTipar.value && o.hartieId == f.hartieId && o.beneficiarId == f.beneficiarId
    ensures o.fsc == f.fsc && o.codFscOutput == f.codFscOutput && o.certificareFscOutput == CertificationFor(f.codFscOutput)
    ensures o.lucrare == f.lucrare && o.descriere == f.descriere && o.tiraj == f.tiraj && o.nrPagini == f.nrPagini
    ensures o.latime == f.latime && o.inaltime == f.inaltime && o.indiceCorectie == f.indiceCorectie
    ensures o.echipament == f.echipament && o.data == f.data && o.poClient == f.poClient
    ensures o.nrCulori == f.nrCulori && o.finisare == f.finisare
  {
    Order(numar, f.echipament, f.data, f.beneficiarId, f.lucrare, f.poClient, f.tiraj, f.descriere,
          f.latime, f.inaltime, f.nrPagini, f.indiceCorectie, f.fsc, f.codFscOutput,
          CertificationFor(f.codFscOutput), f.hartieId, f.coalaTipar.value, f.nrCulori,
          Some(f.nrColi), ColiMari(f.nrColi, index),
          Some(JobWeight(f.tiraj, f.latime, f.inaltime, f.nrPagini, f.indiceCorectie)),
          f.finisare, None, false)
  }

  /**
   * The order after a successful edit: every field from the form, the
   * sheet and yield of `EditSheet`; number, price and invoiced flag kept.
   */
  function EditedOrder(o: Order, f: OrderForm, coala: string, index: int): (e: Order)
    requires f.nrColi > 0 ==> index != 0
    ensures e.numar == o.numar && e.pret == o.pret && e.facturata == o.facturata
    ensures e.greutate == Some(OrderModel.CalculeazaGreutate(e))
    ensures e.coliMari == ColiMari(f.nrColi, index) && e.nrColi == Some(f.nrColi) && e.coalaTipar == coala
    ensures e.hartieId == f.hartieId && e.beneficiarId == f.beneficiarId
    ensures e.fsc == f.fsc && e.codFscOutput == f.codFscOutput && e.certificareFscOutput == CertificationFor(f.codFscOutput)
    ensures e.lucrare == f.lucrare && e.descriere == f.descriere && e.tiraj == f.tiraj && e.nrPagini == f.nrPagini
    ensures e.latime == f.latime && e.inaltime == f.inaltime && e.indiceCorectie == f.indiceCorectie
    ensures e.echipament == f.echipament && e.data == f.data && e.poClient == f.poClient
    ensures e.nrCulori == f.nrCulori && e.finisare == f.finisare
  {
    Order(o.numar, f.echipament, f.data, f.beneficiarId, f.lucrare, f.poClient, f.tiraj, f.descriere,
          f.latime, f.inaltime, f.nrPagini, f.indiceCorectie, f.fsc, f.codFscOutput,
          CertificationFor(f.codFscOutput), f.hartieId, coala, f.nrCulori,
          Some(f.nrColi), ColiMari(f.nrColi, index),
          Some(JobWeight(f.tiraj, f.latime, f.inaltime, f.nrPagini, f.indiceCorectie)),
          f.finisare, o.pret, o.facturata)
  }

  /** How a submit of the edit form ends. */
  datatype EditOutcome =
    | SheetIndexZero            // the form cannot be drawn: press sheets over a zero yield
    | ReadOnly                  // the order is invoiced
    | Rejected(check: OrderCheck)
    | Updated

  /**
   * The edit form's outcome for order `o` with the yield `index` chosen
   * for it: the form is drawn first (a division by a zero yield aborts
   * it), an invoiced order is read-only, then the form-only checks run.
   */
  function EditVerdict(o: Order, f: OrderForm, index: int): (r: EditOutcome)
    ensures r == Updated <==> !(f.nrColi > 0 && index == 0) && !o.facturata && ValidateOrderEdit(f).None?
    ensures o.facturata ==> r != Updated
    ensures r.Rejected? ==> ValidateOrderEdit(f) == Some(r.check)
  {
    if f.nrColi > 0 && index == 0 then SheetIndexZero
    else if o.facturata then ReadOnly
    else match ValidateOrderEdit(f)
      case Some(c) => Rejected(c)
      case None => Updated
  }

  /**
   * The delete button of the edit form: the order is deleted exactly when
   * the form can be drawn and the order is not invoiced. The edit checks
   * are not run, so the delete goes through wherever an update would and
   * also for forms the edit checks reject.
   */
  function DeleteVerdict(o: Order, f: OrderForm, index: int): (deleted: bool)
    ensures deleted <==> EditVerdict(o, f, index) != SheetIndexZero && EditVerdict(o, f, index) != ReadOnly
    ensures EditVerdict(o, f, index) == Updated ==> deleted
    ensures EditVerdict(o, f, index).Rejected? ==> deleted
    ensures deleted ==> !o.facturata
  {
    !(f.nrColi > 0 && index == 0) && !o.facturata
  }
}

=== FILE: paper_model.dfy ===
/**
 * The paper sort (`Hartie`): its columns, and the weight of the sheets in
 * stock, which every page that changes the stock recomputes.
 */
module PaperModel {
  import opened Common

  /**
   * One paper sort. Dimensions are in cm, grammage in g/m², stock in
   * sheets and weight in kg. `codFscIesire` stands for the "can produce
   * FSC-certified output" attribute the order pages read from a paper but
   * that no page ever sets.
   */
  datatype Paper = Paper(
    id: int,
    sortiment: string,
    dimensiune1: real,
    dimensiune2: real,
    gramaj: real,
    formatHartie: string,
    stoc: real,
    greutate: real,
    fscMateriePrima: bool,
    codFscMateriePrima: Option<string>,
    certificareFscMateriePrima: Option<string>,
    furnizor: Option<string>,
    codCertificare: Option<string>,
    codFscIesire: Option<string>)

  /** Weight in kg of `stoc` sheets of `d1` x `d2` cm at `gramaj` g/m². */
  function StockWeight(d1: real, d2: real, gramaj: real, stoc: real): (w: real)
    ensures stoc == 0.0 ==> w == 0.0
    ensures d1 >= 0.0 && d2 >= 0.0 && gramaj >= 0.0 && stoc >= 0.0 ==> w >= 0.0
  {
    d1 * d2 * gramaj * stoc / 10000000.0
  }

  /** Weight of the stock as `Hartie.calculeaza_greutate` computes it. */
  function CalculeazaGreutate(p: Paper): real {
    StockWeight(p.dimensiune1, p.dimensiune2, p.gramaj, p.stoc)
  }

  /** The stored weight is the one the formula gives for the stored stock. */
  predicate WeightConsistent(p: Paper) {
    p.greutate == CalculeazaGreutate(p)
  }

  /** The ledger invariant of one paper: no negative stock, weight up to date. */
  predicate StockOk(p: Paper) {
    p.stoc >= 0.0 && WeightConsistent(p)
  }

  /**
   * The paper with its stock set to `s` and its weight recomputed
   * (`hartie.stoc = …; hartie.greutate = hartie.calculeaza_greutate()`);
   * every other column is kept.
   */
  function WithStock(p: Paper, s: real): (r: Paper)
    ensures r.stoc == s && WeightConsistent(r)
    ensures r.(stoc := p.stoc, greutate := p.greutate) == p
    ensures s >= 0.0 ==> StockOk(r)
  {
    var q := p.(stoc := s);
    q.(greutate := CalculeazaGreutate(q))
  }

  /** Weight is additive in the stock: `c` more sheets weigh `StockWeight(…, c)` more. */
  lemma WeightAdditive(d1: real, d2: real, gramaj: real, s: real, c: real)
    ensures StockWeight(d1, d2, gramaj, s + c)
         == StockWeight(d1, d2, gramaj, s) + StockWeight(d1, d2, gramaj, c)
  {
    var k := d1 * d2 * gramaj;
    assert k * (s + c) == k * s + k * c;
  }

  /**
   * Changing the stock of a consistent paper by `c` sheets changes its
   * weight by exactly the weight of `c` sheets.
   */
  lemma StockChangeWeight(p: Paper, c: real)
    requires WeightConsistent(p)
    ensures WithStock(p, p.stoc + c).greutate
         == p.greutate + StockWeight(p.dimensiune1, p.dimensiune2, p.gramaj, c)
  {
    WeightAdditive(p.dimensiune1, p.dimensiune2, p.gramaj, p.stoc, c);
  }

  /** Adding `c` sheets and then taking the same `c` back gives the paper back unchanged. */
  lemma StockChangeRoundTrip(p: Paper, c: real)
    requires WeightConsistent(p)
    ensures WithStock(WithStock(p, p.stoc + c), p.stoc + c - c) == p
  {
  }

  /** The paper with stock and weight both set to 0, as the stock reset writes them. */
  function Zeroed(p: Paper): (r: Paper)
    ensures r == WithStock(p, 0.0)
    ensures StockOk(r)
  {
    p.(stoc := 0.0, greutate := 0.0)
  }
}

=== FILE: paper_page.dfy ===
/**
 * The rules of the paper page: the format table that fixes a sort's
 * dimensions, the raw-material FSC fields, the validation of the add and
 * edit forms, the paper records they produce, and the search.
 */
module PaperPage {
  import opened Common
  import opened PaperModel

  /** Paper format -> its two dimensions in cm. */
  const FormateHartie: map<string, (real, real)> := map[
      "70 x 100" := (70.0, 100.0),
      "72 x 102" := (72.0, 102.0),
      "45 x 64" := (45.0, 64.0),
      "SRA3" := (32.0, 45.0),
      "50 x 70" := (50.0, 70.0),
      "A4" := (21.0, 29.7),
      "64 x 90" := (64.0, 90.0),
      "61 x 86" := (61.0, 86.0),
      "A3" := (29.7, 42.0),
      "43 x 61" := (43.0, 61.0)
    ]

  /** Every format in the table has positive dimensions. */
  lemma FormatDimensionsPositive(format: string)
    requires format in FormateHartie
    ensures FormateHartie[format].0 > 0.0 && FormateHartie[format].1 > 0.0
  {
  }

  /** What the user entered on the add or edit form of a paper sort. */
  datatype PaperForm = PaperForm(
    sortiment: string,
    formatHartie: string,
    gramaj: real,
    stoc: real,
    hasFsc: bool,
    codFsc: Option<string>,
    certificareFsc: Option<string>)

  /** The raw-material FSC code and certification stored: none when the FSC box is unchecked. */
  function FscFields(f: PaperForm): (r: (Option<string>, Option<string>))
    ensures !f.hasFsc ==> r == (None, None)
    ensures f.hasFsc ==> r == (f.codFsc, f.certificareFsc)
  {
    if f.hasFsc then (f.codFsc, f.certificareFsc) else (None, None)
  }

  datatype PaperCheck = MissingFields | MissingFscData

  /** The form's verdict: nothing when it is accepted, else the first check that fails. */
  function ValidatePaper(f: PaperForm): (r: Option<PaperCheck>)
    ensures r.None? <==> f.sortiment != "" && f.gramaj > 0.0 && (f.hasFsc ==> Filled(f.codFsc) && Filled(f.certificareFsc))
    ensures r == Some(MissingFields) <==> f.sortiment == "" || f.gramaj <= 0.0
  {
    if f.sortiment == "" || f.gramaj <= 0.0 then Some(MissingFields)
    else if f.hasFsc && (!Filled(f.codFsc) || !Filled(f.certificareFsc)) then Some(MissingFscData)
    else None
  }

  /**
   * The paper the add form creates under `id`: dimensions from the
   * format, the entered stock with its weight, and the FSC fields; no
   * supplier, supplier certificate or output FSC code.
   */
  function NewPaper(id: int, f: PaperForm): (p: Paper)
    requires f.formatHartie in FormateHartie
    ensures p.id == id && p.sortiment == f.sortiment && p.formatHartie == f.formatHartie && p.gramaj == f.gramaj
    ensures (p.dimensiune1, p.dimensiune2) == FormateHartie[f.formatHartie]
    ensures p.stoc == f.stoc && WeightConsistent(p)
    ensures f.stoc >= 0.0 ==> StockOk(p)
    ensures p.fscMateriePrima == f.hasFsc && (p.codFscMateriePrima, p.certificareFscMateriePrima) == FscFields(f)
    ensures p.furnizor.None? && p.codCertificare.None? && p.codFscIesire.None?
  {
    var (d1, d2) := FormateHartie[f.formatHartie];
    var (cod, cert) := FscFields(f);
    Paper(id, f.sortiment, d1, d2, f.gramaj, f.formatHartie, f.stoc,
          StockWeight(d1, d2, f.gramaj, f.stoc), f.hasFsc, cod, cert, None, None, None)
  }

  /**
   * The paper after a successful edit: every form field overwritten,
   * including the stock, with the weight recomputed for it; the id, the
   * supplier columns and the output FSC code kept.
   */
  function UpdatedPaper(p: Paper, f: PaperForm): (r: Paper)
    requires f.formatHartie in FormateHartie
    ensures r.id == p.id && r.furnizor == p.furnizor && r.codCertificare == p.codCertificare
    ensures r.codFscIesire == p.codFscIesire
    ensures r.sortiment == f.sortiment && r.formatHartie == f.formatHartie && r.gramaj == f.gramaj
    ensures (r.dimensiune1, r.dimensiune2) == FormateHartie[f.formatHartie]
    ensures r.stoc == f.stoc && WeightConsistent(r)
    ensures f.stoc >= 0.0 ==> StockOk(r)
    ensures r.fscMateriePrima == f.hasFsc && (r.codFscMateriePrima, r.certificareFscMateriePrima) == FscFields(f)
  {
    var n := NewPaper(p.id, f);
    n.(furnizor := p.furnizor, codCertificare := p.codCertificare, codFscIesire := p.codFscIesire)
  }

  /** With the FSC box unchecked an edit clears the raw-material code and certification. */
  lemma UncheckedFscClears(p: Paper, f: PaperForm)
    requires f.formatHartie in FormateHartie && !f.hasFsc
    ensures UpdatedPaper(p, f).codFscMateriePrima.None?
    ensures UpdatedPaper(p, f).certificareFscMateriePrima.None?
    ensures !UpdatedPaper(p, f).fscMateriePrima
  {
  }

  predicate SortimentMatches(p: Paper, q: string) {
    ContainsIgnoringCase(p.sortiment, q)
  }

  /**
   * The paper list: all papers for an empty query, otherwise those whose
   * sort name contains the query ignoring case, in table order.
   */
  function SearchPapers(papers: seq<Paper>, q: string): (r: seq<Paper>)
    ensures forall p :: p in r ==> p in papers && (q == "" || SortimentMatches(p, q))
    ensures forall p :: p in papers && (q == "" || SortimentMatches(p, q)) ==> p in r
  {
    if q == "" then papers
    else
      FilterMembers(papers, p => SortimentMatches(p, q));
      Filter(papers, p => SortimentMatches(p, q))
  }

  /** The empty query matches every name, so the unfiltered branch agrees with the filter. */
  lemma EmptyQueryMatchesAll(papers: seq<Paper>)
    ensures Filter(papers, p => SortimentMatches(p, "")) == papers
    decreases |papers|
  {
    if papers != [] {
      var last := papers[|papers| - 1];
      assert OccursAt(Lower(last.sortiment), Lower(""), 0);
      EmptyQueryMatchesAll(papers[..|papers| - 1]);
    }
  }
}

=== FILE: pdf_reports.dfy ===
/**
 * The PDF reports page: the stock movement of every paper sort over a
 * period (stock at the start, receipts, consumption, stock at the end),
 * the FSC report over invoiced FSC orders, and the quick date windows
 * (current month, previous month, current quarter).
 */
module PdfReports {
  import opened Common
  import opened SheetTables
  import opened PaperModel
  import opened OrderModel
  import opened StockPage
  import Reports
  import Invoicing

  // ---------------------------------------------------------- stock movement

  /** A receipt of paper `id` dated in [start, end]. */
  function ReceiptOf(id: int, start: Date, end: Date): StockEntry -> bool {
    (e: StockEntry) => e.hartieId == id && InPeriod(e.data, start, end)
  }

  /** An invoiced order on paper `id` dated in [start, end]. */
  function InvoicedOn(id: int, start: Date, end: Date): Order -> bool {
    (o: Order) => o.hartieId == id && o.facturata && InPeriod(o.data, start, end)
  }

  /**
   * Stock sheets an invoiced order took out: its press sheets over the
   * sheet's yield, when it states press sheets (a non-zero count) of a
   * sheet the table knows; otherwise nothing.
   */
  function Outflow(o: Order, indici: SheetIndices): (c: real)
    requires PositiveIndices(indici)
    ensures o.nrColi.Some? && o.nrColi.value != 0 && o.coalaTipar in indici ==>
      c * indici[o.coalaTipar] as real == o.nrColi.value as real
    ensures o.nrColi.None? || o.nrColi.value == 0 || o.coalaTipar !in indici ==> c == 0.0
  {
    if o.nrColi.Some? && o.nrColi.value != 0 && o.coalaTipar in indici then
      o.nrColi.value as real / indici[o.coalaTipar] as real
    else 0.0
  }

  /** Sum of the outflows of `os`, in list order. */
  function SumOutflow(os: seq<Order>, indici: SheetIndices): real
    requires PositiveIndices(indici)
  {
    if os == [] then 0.0 else SumOutflow(os[..|os| - 1], indici) + Outflow(os[|os| - 1], indici)
  }

  /** One line of the stock report. */
  datatype StockMovement = StockMovement(
    sortiment: string,
    stocInitial: real,
    intrari: real,
    iesiri: real,
    stocFinal: real,
    diferenta: real)

  /**
   * The line of paper `p` given its receipts and its consumption in the
   * period: the stock at the start is worked back from the current stock.
   */
  function MovementRow(p: Paper, intrari: real, iesiri: real): (r: StockMovement)
    ensures r.sortiment == p.sortiment && r.intrari == intrari && r.iesiri == iesiri
    ensures r.stocFinal == p.stoc
    ensures r.stocInitial + r.intrari - r.iesiri == r.stocFinal
    ensures r.diferenta == intrari - iesiri
  {
    var stocInitial := p.stoc - intrari + iesiri;
    var stocFinal := p.stoc;
    StockMovement(p.sortiment, stocInitial, intrari, iesiri, stocFinal, stocFinal - stocInitial)
  }

  /** Receipts of paper `id` in the period: the sum of their quantities. */
  function Intrari(entries: seq<StockEntry>, id: int, start: Date, end: Date): real {
    TotalQuantity(Filter(entries, ReceiptOf(id, start, end)))
  }

  /** Consumption of paper `id` in the period: the sum of its invoiced orders' outflows. */
  function Iesiri(orders: seq<Order>, id: int, indici: SheetIndices, start: Date, end: Date): real
    requires PositiveIndices(indici)
  {
    SumOutflow(Filter(orders, InvoicedOn(id, start, end)), indici)
  }

  /** The consumption of one paper over the period, accumulated order by order. */
  method PaperOutflow(orders: seq<Order>, id: int, indici: SheetIndices, start: Date, end: Date) returns (total: real)
    requires PositiveIndices(indici)
    ensures total == Iesiri(orders, id, indici, start, end)
  {
    var comenzi := Filter(orders, InvoicedOn(id, start, end));
    total := 0.0;
    for i := 0 to |comenzi|
      invariant total == SumOutflow(comenzi[..i], indici)
    {
      assert comenzi[..i + 1][..i] == comenzi[..i];
      var o := comenzi[i];
      if o.nrColi.Some? && o.nrColi.value != 0 && o.coalaTipar in indici {
        total := total + o.nrColi.value as real / indici[o.coalaTipar] as real;
      }
    }
    assert comenzi[..|comenzi|] == comenzi;
  }

  /**
   * The stock report for [start, end]: one line per paper sort, in table
   * order; a period that starts after it ends is refused.
   */
  method StockReport(papers: seq<Paper>, entries: seq<StockEntry>, orders: seq<Order>, indici: SheetIndices, start: Date, end: Date)
    returns (r: Result<seq<StockMovement>, Reports.PeriodError>)
    requires PositiveIndices(indici)
    ensures r.Err? <==> !DateLe(start, end)
    ensures r.Ok? ==> |r.value| == |papers|
    ensures r.Ok? ==> forall i :: 0 <= i < |papers| ==>
      r.value[i] == MovementRow(papers[i], Intrari(entries, papers[i].id, start, end), Iesiri(orders, papers[i].id, indici, start, end))
  {
    if !DateLe(start, end) {
      return Err(Reports.StartAfterEnd);
    }
    var rows: seq<StockMovement> := [];
    for i := 0 to |papers|
      invariant |rows| == i
      invariant forall j :: 0 <= j < i ==>
        rows[j] == MovementRow(papers[j], Intrari(entries, papers[j].id, start, end), Iesiri(orders, papers[j].id, indici, start, end))
    {
      var hartie := papers[i];
      var totalIesiri := PaperOutflow(orders, hartie.id, indici, start, end);
      var totalIntrari := TotalQuantity(Filter(entries, ReceiptOf(hartie.id, start, end)));
      var stocInitial := hartie.stoc - totalIntrari + totalIesiri;
      var stocFinal := hartie.stoc;
      rows := rows + [StockMovement(hartie.sortiment, stocInitial, totalIntrari, totalIesiri, stocFinal, stocFinal - stocInitial)];
    }
    return Ok(rows);
  }

  /**
   * With no receipt and no consumption in the period, a paper's line
   * shows the same stock at both ends.
   */
  lemma QuietPeriodKeepsStock(p: Paper, entries: seq<StockEntry>, orders: seq<Order>, indici: SheetIndices, start: Date, end: Date)
    requires PositiveIndices(indici)
    requires forall i :: 0 <= i < |entries| ==> !ReceiptOf(p.id, start, end)(entries[i])
    requires forall i :: 0 <= i < |orders| ==> !InvoicedOn(p.id, start, end)(orders[i])
    ensures
      var r := MovementRow(p, Intrari(entries, p.id, start, end), Iesiri(orders, p.id, indici, start, end));
      r.stocInitial == r.stocFinal == p.stoc && r.diferenta == 0.0
  {
    FilterNone(entries, ReceiptOf(p.id, start, end));
    FilterNone(orders, InvoicedOn(p.id, start, end));
  }

  // -------------------------------------------------------------- FSC report

  /**
   * An order the FSC report lists: FSC, invoiced, dated in [start, end],
   * of the selected client when one is selected (an id of 0 is falsy and
   * selects nothing), with its client and paper existing (inner joins).
   */
  predicate FscListed(o: Order, start: Date, end: Date, client: Option<int>, clientIds: set<int>, paperIds: set<int>) {
    InPeriod(o.data, start, end) && o.fsc && o.facturata
    && (client.Some? && client.value != 0 ==> o.beneficiarId == client.value)
    && o.beneficiarId in clientIds && o.hartieId in paperIds
  }

  function FscListedBy(start: Date, end: Date, client: Option<int>, clientIds: set<int>, paperIds: set<int>): Order -> bool {
    o => FscListed(o, start, end, client, clientIds, paperIds)
  }

  /** Sum of the runs of `os`, in list order. */
  function TotalTiraj(os: seq<Order>): int {
    if os == [] then 0 else TotalTiraj(os[..|os| - 1]) + os[|os| - 1].tiraj
  }

  /** How the FSC summary names a paper sort: its sortiment and its raw-material FSC code. */
  datatype FscKey = FscKey(sortiment: string, cod: Option<string>)

  function FscKeyOf(p: Paper): FscKey {
    FscKey(p.sortiment, p.codFscMateriePrima)
  }

  /** Adds consumption `c` under key `k`. */
  function AddTo(acc: map<FscKey, real>, k: FscKey, c: real): map<FscKey, real> {
    if k in acc then acc[k := acc[k] + c] else acc[k := c]
  }

  /** Adding under one key leaves every other key as it was. */
  lemma AddToElsewhere(acc: map<FscKey, real>, k: FscKey, c: real, j: FscKey)
    requires j != k
    ensures j in AddTo(acc, k, c) <==> j in acc
    ensures j in acc ==> AddTo(acc, k, c)[j] == acc[j]
  {
  }

  /** The FSC consumption summary after the listed orders `os`, taken in list order. */
  function FscSummary(os: seq<Order>, papers: map<int, Paper>, indici: SheetIndices): map<FscKey, real>
    requires PositiveIndices(indici)
  {
    if os == [] then map[]
    else
      SummarizeOrder(FscSummary(os[..|os| - 1], papers, indici), os[|os| - 1], papers, indici)
  }

  /** The summary after one more listed order: its outflow is added under its paper sort when the paper exists. */
  function SummarizeOrder(acc: map<FscKey, real>, o: Order, papers: map<int, Paper>, indici: SheetIndices): map<FscKey, real>
    requires PositiveIndices(indici)
  {
    if o.hartieId in papers then AddTo(acc, FscKeyOf(papers[o.hartieId]), Outflow(o, indici)) else acc
  }

  /** The figures of the FSC report. */
  datatype FscReportData = FscReportData(
    comenzi: seq<Order>,
    consum: map<FscKey, real>,
    totalComenzi: nat,
    totalValoare: real,
    totalTiraj: int)

  /**
   * The FSC report for [start, end]: the listed orders in table order,
   * the consumption per paper sort, their number, their total value (a
   * missing price counting as 0) and their total run; a period that
   * starts after it ends is refused.
   */
  method FscReport(orders: seq<Order>, papers: map<int, Paper>, indici: SheetIndices, start: Date, end: Date, client: Option<int>, clientIds: set<int>)
    returns (r: Result<FscReportData, Reports.PeriodError>)
    requires PositiveIndices(indici)
    ensures r.Err? <==> !DateLe(start, end)
    ensures r.Ok? ==>
      var rows := Filter(orders, FscListedBy(start, end, client, clientIds, papers.Keys));
      r.value == FscReportData(rows, FscSummary(rows, papers, indici), |rows|, TotalPrice(rows), TotalTiraj(rows))
  {
    if !DateLe(start, end) {
      return Err(Reports.StartAfterEnd);
    }
    var comenzi := Filter(orders, FscListedBy(start, end, client, clientIds, papers.Keys));
    var total := SummarizeFsc(comenzi, papers, indici);
    return Ok(FscReportData(comenzi, total, |comenzi|, TotalPrice(comenzi), TotalTiraj(comenzi)));
  }

  /** Adds up, order by order, the outflow of each listed order under its paper sort. */
  method SummarizeFsc(comenzi: seq<Order>, papers: map<int, Paper>, indici: SheetIndices) returns (total: map<FscKey, real>)
    requires PositiveIndices(indici)
    ensures total == FscSummary(comenzi, papers, indici)
  {
    total := map[];
    for i := 0 to |comenzi|
      invariant total == FscSummary(comenzi[..i], papers, indici)
    {
      assert comenzi[..i + 1][..i] == comenzi[..i];
      var o := comenzi[i];
      var consum := 0.0;
      if o.nrColi.Some? && o.nrColi.value != 0 && o.coalaTipar in indici {
        consum := o.nrColi.value as real / indici[o.coalaTipar] as real;
      }
      assert consum == Outflow(o, indici);
      if o.hartieId in papers {
        total := AddTo(total, FscKeyOf(papers[o.hartieId]), consum);
      }
    }
    assert comenzi[..|comenzi|] == comenzi;
  }

  /** The listed orders of paper sort `k`, as a filter. */
  function OfFscKey(k: FscKey, papers: map<int, Paper>): Order -> bool {
    (o: Order) => o.hartieId in papers && FscKeyOf(papers[o.hartieId]) == k
  }

  /** Appending one order adds its outflow. */
  lemma SumOutflowSnoc(os: seq<Order>, o: Order, indici: SheetIndices)
    requires PositiveIndices(indici)
    ensures SumOutflow(os + [o], indici) == SumOutflow(os, indici) + Outflow(o, indici)
  {
    assert (os + [o])[..|os|] == os;
  }

  /**
   * Sort by sort, the FSC summary holds exactly the sorts of the listed
   * orders, each with the sum of their outflows.
   */
  lemma {:induction false} FscSummaryByKey(os: seq<Order>, papers: map<int, Paper>, indici: SheetIndices, k: FscKey)
    requires PositiveIndices(indici)
    ensures
      var sel := Filter(os, OfFscKey(k, papers));
      var t := FscSummary(os, papers, indici);
      && (k in t <==> sel != [])
      && (k in t ==> t[k] == SumOutflow(sel, indici))
  {
    if os != [] {
      var init, o := os[..|os| - 1], os[|os| - 1];
      assert os == init + [o];
      FscSummaryByKey(init, papers, indici, k);
      var keep := OfFscKey(k, papers);
      FilterSnoc(init, o, keep);
      var sel0 := Filter(init, keep);
      var acc := FscSummary(init, papers, indici);
      var t := FscSummary(os, papers, indici);
      if o.hartieId !in papers {
        assert t == acc && !keep(o);
      } else {
        var ko := FscKeyOf(papers[o.hartieId]);
        assert t == AddTo(acc, ko, Outflow(o, indici));
        if ko != k {
          assert !keep(o);
          AddToElsewhere(acc, ko, Outflow(o, indici), k);
        } else {
          assert keep(o);
          SumOutflowSnoc(sel0, o, indici);
          if sel0 == [] {
            assert SumOutflow([], indici) == 0.0;
            assert t[k] == Outflow(o, indici);
          } else {
            assert t[k] == acc[k] + Outflow(o, indici);
          }
        }
      }
    }
  }

  /** The FSC report lists only what the invoiced-only order report lists for the same period and client. */
  lemma FscListedIsInvoicedListed(o: Order, start: Date, end: Date, client: Option<int>, clientIds: set<int>, paperIds: set<int>)
    requires FscListed(o, start, end, client, clientIds, paperIds)
    ensures Reports.Shown(o, Reports.OrderQuery(start, end, client, Reports.OnlyInvoiced), clientIds, paperIds)
  {
  }

  // ------------------------------------------------------------ date windows

  /** The first and last day of month `m` of year `y`. */
  function MonthWindow(y: int, m: int): (w: (Date, Date))
    requires 1 <= m <= 12
    ensures ValidDate(w.0) && ValidDate(w.1) && DateLe(w.0, w.1)
    ensures w.0 == Date(y, m, 1) && w.1.year == y && w.1.month == m
    ensures forall d :: ValidDate(d) ==> (InPeriod(d, w.0, w.1) <==> d.year == y && d.month == m)
  {
    (Date(y, m, 1), Date(y, m, DaysInMonth(y, m)))
  }

  /** The current month, first to last day. */
  function CurrentMonthWindow(today: Date): (w: (Date, Date))
    requires ValidDate(today)
    ensures InPeriod(today, w.0, w.1)
    ensures w == MonthWindow(today.year, today.month)
  {
    MonthWindow(today.year, today.month)
  }

  /** The previous month, first to last day; January's previous month is December of the year before. */
  function PreviousMonthWindow(today: Date): (w: (Date, Date))
    requires ValidDate(today)
    ensures today.month == 1 ==> w == MonthWindow(today.year - 1, 12)
    ensures today.month > 1 ==> w == MonthWindow(today.year, today.month - 1)
    ensures w.1 == DayBefore(Date(today.year, today.month, 1))
  {
    var prevMonth := if today.month == 1 then 12 else today.month - 1;
    var prevYear := if today.month == 1 then today.year - 1 else today.year;
    MonthWindow(prevYear, prevMonth)
  }

  /**
   * The invoicing page and this page compute the previous month
   * differently (the day before the first of this month, or the length of
   * the month) and agree.
   */
  lemma PreviousMonthWindowsAgree(today: Date)
    requires ValidDate(today)
    ensures Invoicing.ReportWindow(Invoicing.PreviousMonth, today) == Some(PreviousMonthWindow(today))
  {
  }

  /** The quarter of month `m`, and the first and last month of that quarter. */
  function Quarter(m: int): (q: (int, int, int))
    requires 1 <= m <= 12
    ensures 1 <= q.0 <= 4
    ensures q.1 == 3 * q.0 - 2 && q.2 == 3 * q.0
    ensures q.1 <= m <= q.2
  {
    var quarter := (m - 1) / 3 + 1;
    (quarter, (quarter - 1) * 3 + 1, quarter * 3)
  }

  /** The current quarter, from the first day of its first month to the last day of its last month. */
  function QuarterWindow(today: Date): (w: (Date, Date))
    requires ValidDate(today)
    ensures ValidDate(w.0) && ValidDate(w.1)
    ensures InPeriod(today, w.0, w.1)
    ensures w.0.year == w.1.year == today.year && w.0.day == 1
    ensures w.1.month - w.0.month == 2 && w.1.day == DaysInMonth(today.year, w.1.month)
  {
    var (_, startMonth, endMonth) := Quarter(today.month);
    (Date(today.year, startMonth, 1), Date(today.year, endMonth, DaysInMonth(today.year, endMonth)))
  }
}

=== FILE: reports.dfy ===
/**
 * The reports page: paper consumption per paper sort over a period, the
 * order report with its status filter and totals, and the statistics per
 * client. Each table is built by a loop that updates a dictionary; each
 * loop is proved to compute a fold over the order rows, and each fold is
 * related, key by key, to a filter of the orders of that key and a sum.
 */
module Reports {
  import opened Common
  import opened SheetTables
  import opened PaperModel
  import opened OrderModel
  import opened ClientPage

  /** The report is refused: the period starts after it ends. */
  datatype PeriodError = StartAfterEnd

  // ------------------------------------------------------ paper consumption

  /** How the consumption report names a paper sort: sortiment, format and grammage. */
  datatype PaperKey = PaperKey(sortiment: string, format: string, gramaj: real)

  function KeyOf(p: Paper): PaperKey {
    PaperKey(p.sortiment, p.formatHartie, p.gramaj)
  }

  /**
   * An order the consumption report counts: invoiced and dated in
   * [start, end], with a positive number of press sheets of a sheet the
   * yield table knows, on an existing paper.
   */
  predicate Counted(o: Order, papers: map<int, Paper>, indici: SheetIndices, start: Date, end: Date) {
    o.facturata && InPeriod(o.data, start, end)
    && o.nrColi.Some? && o.nrColi.value > 0 && o.coalaTipar in indici && o.hartieId in papers
  }

  /** Stock sheets an order consumed: its press sheets over the sheet's yield; 0 for an unknown sheet. */
  function SheetConsumption(o: Order, indici: SheetIndices): (c: real)
    requires PositiveIndices(indici)
    ensures o.nrColi.Some? && o.coalaTipar in indici ==> c * indici[o.coalaTipar] as real == o.nrColi.value as real
    ensures o.nrColi.None? || o.coalaTipar !in indici ==> c == 0.0
  {
    if o.nrColi.Some? && o.coalaTipar in indici then o.nrColi.value as real / indici[o.coalaTipar] as real else 0.0
  }

  /** Weight of an order's consumption, by the paper's weight formula. */
  function ConsumedWeight(o: Order, papers: map<int, Paper>, indici: SheetIndices): real
    requires PositiveIndices(indici)
  {
    if o.hartieId in papers then
      var p := papers[o.hartieId];
      StockWeight(p.dimensiune1, p.dimensiune2, p.gramaj, SheetConsumption(o, indici))
    else 0.0
  }

  /** One line of the consumption table: sheets, kilograms and the numbers of the orders counted. */
  datatype Consumption = Consumption(cantitate: real, greutate: real, comenzi: seq<int>)

  /** Adds one order's consumption `c`, weight `w` and number `n` under key `k`. */
  function Accumulate(acc: map<PaperKey, Consumption>, k: PaperKey, c: real, w: real, n: int): map<PaperKey, Consumption> {
    if k in acc then acc[k := Consumption(acc[k].cantitate + c, acc[k].greutate + w, acc[k].comenzi + [n])]
    else acc[k := Consumption(c, w, [n])]
  }

  /** The consumption table after the orders `os`, taken in list order. */
  function ConsumptionTable(os: seq<Order>, papers: map<int, Paper>, indici: SheetIndices, start: Date, end: Date): map<PaperKey, Consumption>
    requires PositiveIndices(indici)
  {
    if os == [] then map[]
    else
      CountOrder(ConsumptionTable(os[..|os| - 1], papers, indici, start, end), os[|os| - 1], papers, indici, start, end)
  }

  /** The table after one more order: its consumption is added under its paper sort when it is counted. */
  function CountOrder(acc: map<PaperKey, Consumption>, o: Order, papers: map<int, Paper>, indici: SheetIndices, start: Date, end: Date): map<PaperKey, Consumption>
    requires PositiveIndices(indici)
  {
    if Counted(o, papers, indici, start, end) then
      Accumulate(acc, KeyOf(papers[o.hartieId]), SheetConsumption(o, indici), ConsumedWeight(o, papers, indici), o.numar)
    else acc
  }

  /** Builds the consumption table for [start, end]; a period that starts after it ends is refused. */
  method ConsumptionReport(orders: seq<Order>, papers: map<int, Paper>, indici: SheetIndices, start: Date, end: Date)
    returns (r: Result<map<PaperKey, Consumption>, PeriodError>)
    requires PositiveIndices(indici)
    ensures r.Err? <==> !DateLe(start, end)
    ensures r.Ok? ==> r.value == ConsumptionTable(orders, papers, indici, start, end)
  {
    if !DateLe(start, end) {
      return Err(StartAfterEnd);
    }
    var table: map<PaperKey, Consumption> := map[];
    for i := 0 to |orders|
      invariant table == ConsumptionTable(orders[..i], papers, indici, start, end)
    {
      assert orders[..i + 1][..i] == orders[..i];
      var o := orders[i];
      if o.facturata && InPeriod(o.data, start, end) && o.nrColi.Some? && o.nrColi.value > 0
        && o.coalaTipar in indici && o.hartieId in papers
      {
        var hartie := papers[o.hartieId];
        var consum := o.nrColi.value as real / indici[o.coalaTipar] as real;
        var key := KeyOf(hartie);
        var greutate := hartie.dimensiune1 * hartie.dimensiune2 * hartie.gramaj * consum / 10000000.0;
        assert consum == SheetConsumption(o, indici) && greutate == ConsumedWeight(o, papers, indici);
        if key in table {
          table := table[key := Consumption(table[key].cantitate + consum, table[key].greutate + greutate, table[key].comenzi + [o.numar])];
        } else {
          table := table[key := Consumption(consum, greutate, [o.numar])];
        }
      }
    }
    assert orders[..|orders|] == orders;
    return Ok(table);
  }

  /** The orders counted under key `k`, as a filter. */
  function CountedUnder(k: PaperKey, papers: map<int, Paper>, indici: SheetIndices, start: Date, end: Date): Order -> bool {
    o => Counted(o, papers, indici, start, end) && KeyOf(papers[o.hartieId]) == k
  }

  /** Sum of the consumptions of `os`, in list order. */
  function SumConsumption(os: seq<Order>, indici: SheetIndices): real
    requires PositiveIndices(indici)
  {
    if os == [] then 0.0 else SumConsumption(os[..|os| - 1], indici) + SheetConsumption(os[|os| - 1], indici)
  }

  /** Sum of the consumed weights of `os`, in list order. */
  function SumWeight(os: seq<Order>, papers: map<int, Paper>, indici: SheetIndices): real
    requires PositiveIndices(indici)
  {
    if os == [] then 0.0 else SumWeight(os[..|os| - 1], papers, indici) + ConsumedWeight(os[|os| - 1], papers, indici)
  }

  /** The order numbers of `os`, in list order. */
  function Numbers(os: seq<Order>): (r: seq<int>)
    ensures |r| == |os| && forall i :: 0 <= i < |os| ==> r[i] == os[i].numar
  {
    if os == [] then [] else Numbers(os[..|os| - 1]) + [os[|os| - 1].numar]
  }

  /** Appending one order adds its consumption, its weight and its number. */
  lemma SumsSnoc(sel: seq<Order>, o: Order, papers: map<int, Paper>, indici: SheetIndices)
    requires PositiveIndices(indici)
    ensures SumConsumption(sel + [o], indici) == SumConsumption(sel, indici) + SheetConsumption(o, indici)
    ensures SumWeight(sel + [o], papers, indici) == SumWeight(sel, papers, indici) + ConsumedWeight(o, papers, indici)
    ensures Numbers(sel + [o]) == Numbers(sel) + [o.numar]
  {
    assert (sel + [o])[..|sel|] == sel;
  }

  /** Accumulating under one key leaves every other key as it was. */
  lemma AccumulateElsewhere(acc: map<PaperKey, Consumption>, k: PaperKey, c: real, w: real, n: int, j: PaperKey)
    requires j != k
    ensures j in Accumulate(acc, k, c, w, n) <==> j in acc
    ensures j in acc ==> Accumulate(acc, k, c, w, n)[j] == acc[j]
  {
  }

  /**
   * Line `k` of table `t` is the one the orders `sel` make: present exactly
   * when there are some, and then their summed consumption, their summed
   * weight and their numbers.
   */
  predicate LineOf(t: map<PaperKey, Consumption>, k: PaperKey, sel: seq<Order>, papers: map<int, Paper>, indici: SheetIndices)
    requires PositiveIndices(indici)
  {
    && (k in t <==> sel != [])
    && (k in t ==> t[k] == Consumption(SumConsumption(sel, indici), SumWeight(sel, papers, indici), Numbers(sel)))
  }

  /** Counting one more order keeps line `k` the line of the orders counted under `k`. */
  lemma LineStep(acc: map<PaperKey, Consumption>, sel0: seq<Order>, o: Order, papers: map<int, Paper>, indici: SheetIndices, start: Date, end: Date, k: PaperKey)
    requires PositiveIndices(indici)
    requires LineOf(acc, k, sel0, papers, indici)
    ensures LineOf(CountOrder(acc, o, papers, indici, start, end), k,
                   if CountedUnder(k, papers, indici, start, end)(o) then sel0 + [o] else sel0, papers, indici)
  {
    var t := CountOrder(acc, o, papers, indici, start, end);
    if Counted(o, papers, indici, start, end) {
      var c, w := SheetConsumption(o, indici), ConsumedWeight(o, papers, indici);
      var ko := KeyOf(papers[o.hartieId]);
      assert t == Accumulate(acc, ko, c, w, o.numar);
      if ko != k {
        AccumulateElsewhere(acc, ko, c, w, o.numar, k);
      } else {
        SumsSnoc(sel0, o, papers, indici);
        if sel0 == [] {
          assert SumConsumption(sel0, indici) == 0.0 && SumWeight(sel0, papers, indici) == 0.0 && Numbers(sel0) == [];
        }
      }
    }
  }

  /**
   * Key by key, the consumption table holds exactly the paper sorts some
   * counted order uses, and for each: the sum of the consumptions of its
   * counted orders, the sum of their weights, and their numbers.
   */
  lemma {:induction false} ConsumptionByKey(os: seq<Order>, papers: map<int, Paper>, indici: SheetIndices, start: Date, end: Date, k: PaperKey)
    requires PositiveIndices(indici)
    ensures LineOf(ConsumptionTable(os, papers, indici, start, end), k, Filter(os, CountedUnder(k, papers, indici, start, end)), papers, indici)
  {
    if os != [] {
      var init, o := os[..|os| - 1], os[|os| - 1];
      assert os == init + [o];
      ConsumptionByKey(init, papers, indici, start, end, k);
      var keep := CountedUnder(k, papers, indici, start, end);
      FilterSnoc(init, o, keep);
      LineStep(ConsumptionTable(init, papers, indici, start, end), Filter(init, keep), o, papers, indici, start, end, k);
    }
  }

  /** The "Comenzi" column: how many distinct order numbers a line lists. */
  function OrdersColumn(r: Consumption): nat {
    |set n | n in r.comenzi|
  }

  /** Filtering keeps order numbers pairwise distinct. */
  lemma {:induction false} FilterKeepsUniqueNumbers(os: seq<Order>, keep: Order -> bool)
    requires UniqueNumbers(os)
    ensures UniqueNumbers(Filter(os, keep))
  {
    if os != [] {
      var init, o := os[..|os| - 1], os[|os| - 1];
      assert UniqueNumbers(init) by {
        forall i, j | 0 <= i < j < |init| ensures init[i].numar != init[j].numar {
          assert init[i] == os[i] && init[j] == os[j];
        }
      }
      FilterKeepsUniqueNumbers(init, keep);
      FilterMembers(init, keep);
      var sel0 := Filter(init, keep);
      forall i | 0 <= i < |sel0| ensures sel0[i].numar != o.numar {
        var a :| 0 <= a < |init| && init[a] == sel0[i];
        assert os[a] == sel0[i];
      }
    }
  }

  /** A list of pairwise distinct numbers has as many distinct numbers as entries. */
  lemma {:induction false} DistinctCount(s: seq<int>)
    requires forall i, j :: 0 <= i < j < |s| ==> s[i] != s[j]
    ensures |set n | n in s| == |s|
  {
    if s != [] {
      var init := s[..|s| - 1];
      DistinctCount(init);
      assert (set n | n in s) == (set n | n in init) + {s[|s| - 1]} by {
        assert s == init + [s[|s| - 1]];
      }
      assert s[|s| - 1] !in (set n | n in init);
    }
  }

  /**
   * Since order numbers are unique, the "Comenzi" column of a paper sort
   * is the number of orders counted under it.
   */
  lemma OrdersColumnCountsOrders(os: seq<Order>, papers: map<int, Paper>, indici: SheetIndices, start: Date, end: Date, k: PaperKey)
    requires PositiveIndices(indici) && UniqueNumbers(os)
    requires k in ConsumptionTable(os, papers, indici, start, end)
    ensures OrdersColumn(ConsumptionTable(os, papers, indici, start, end)[k])
         == |Filter(os, CountedUnder(k, papers, indici, start, end))|
  {
    var sel := Filter(os, CountedUnder(k, papers, indici, start, end));
    ConsumptionByKey(os, papers, indici, start, end, k);
    FilterKeepsUniqueNumbers(os, CountedUnder(k, papers, indici, start, end));
    DistinctCount(Numbers(sel));
  }

  // ----------------------------------------------------------- order report

  /** The status choice of the order report: "Toate", "Doar facturate", "Doar nefacturate". */
  datatype StatusFilter = All | OnlyInvoiced | OnlyUnbilled

  predicate StatusKeeps(s: StatusFilter, o: Order) {
    match s
    case All => true
    case OnlyInvoiced => o.facturata
    case OnlyUnbilled => !o.facturata
  }

  /**
   * The order report's filter: the period, the selected client's id when
   * one is selected (an id of 0 is falsy and selects nothing), the status.
   */
  datatype OrderQuery = OrderQuery(start: Date, end: Date, client: Option<int>, status: StatusFilter)

  /** An order the report lists: it matches the query and its client and paper exist (inner joins). */
  predicate Shown(o: Order, q: OrderQuery, clientIds: set<int>, paperIds: set<int>) {
    InPeriod(o.data, q.start, q.end)
    && (q.client.Some? && q.client.value != 0 ==> o.beneficiarId == q.client.value)
    && StatusKeeps(q.status, o)
    && o.beneficiarId in clientIds && o.hartieId in paperIds
  }

  function ShownBy(q: OrderQuery, clientIds: set<int>, paperIds: set<int>): Order -> bool {
    o => Shown(o, q, clientIds, paperIds)
  }

  predicate IsInvoiced(o: Order) {
    o.facturata
  }

  /**
   * The order report: the rows listed, the total value (a missing price
   * counting as 0) and how many of the rows are invoiced.
   */
  method OrderReport(orders: seq<Order>, q: OrderQuery, clientIds: set<int>, paperIds: set<int>)
    returns (rows: seq<Order>, total: real, invoiced: nat)
    ensures rows == Filter(orders, ShownBy(q, clientIds, paperIds))
    ensures total == TotalPrice(rows)
    ensures invoiced == |Filter(rows, IsInvoiced)|
  {
    rows := Filter(orders, ShownBy(q, clientIds, paperIds));
    total := 0.0;
    invoiced := 0;
    for i := 0 to |rows|
      invariant total == TotalPrice(rows[..i])
      invariant invoiced == |Filter(rows[..i], IsInvoiced)|
    {
      TotalPriceSnoc(rows[..i], rows[i]);
      assert rows[..i + 1] == rows[..i] + [rows[i]];
      FilterStep(rows, i, IsInvoiced);
      total := total + PriceOrZero(rows[i]);
      if rows[i].facturata {
        invoiced := invoiced + 1;
      }
    }
    assert rows[..|rows|] == rows;
  }

  /**
   * When every order `p` keeps is kept by exactly one of `q` and `r`, the
   * rows `p` keeps are as many, and worth as much, as those of `q` and `r`
   * together.
   */
  lemma {:induction false} FilterPartition(os: seq<Order>, p: Order -> bool, q: Order -> bool, r: Order -> bool)
    requires forall i :: 0 <= i < |os| ==> (p(os[i]) <==> q(os[i]) || r(os[i])) && !(q(os[i]) && r(os[i]))
    ensures |Filter(os, p)| == |Filter(os, q)| + |Filter(os, r)|
    ensures TotalPrice(Filter(os, p)) == TotalPrice(Filter(os, q)) + TotalPrice(Filter(os, r))
  {
    if os != [] {
      var init, o := os[..|os| - 1], os[|os| - 1];
      assert os == init + [o];
      assert forall i :: 0 <= i < |init| ==> init[i] == os[i];
      FilterPartition(init, p, q, r);
      FilterSnoc(init, o, p);
      FilterSnoc(init, o, q);
      FilterSnoc(init, o, r);
      if q(o) {
        TotalPriceSnoc(Filter(init, p), o);
        TotalPriceSnoc(Filter(init, q), o);
      } else if r(o) {
        TotalPriceSnoc(Filter(init, p), o);
        TotalPriceSnoc(Filter(init, r), o);
      }
    }
  }

  /**
   * "Toate" lists exactly the orders of "Doar facturate" and "Doar
   * nefacturate" together: its row count and its total value are the sums
   * of theirs.
   */
  lemma StatusPartition(os: seq<Order>, start: Date, end: Date, client: Option<int>, clientIds: set<int>, paperIds: set<int>)
    ensures
      var all := Filter(os, ShownBy(OrderQuery(start, end, client, All), clientIds, paperIds));
      var inv := Filter(os, ShownBy(OrderQuery(start, end, client, OnlyInvoiced), clientIds, paperIds));
      var unb := Filter(os, ShownBy(OrderQuery(start, end, client, OnlyUnbilled), clientIds, paperIds));
      && |all| == |inv| + |unb|
      && TotalPrice(all) == TotalPrice(inv) + TotalPrice(unb)
  {
    FilterPartition(os, ShownBy(OrderQuery(start, end, client, All), clientIds, paperIds),
                    ShownBy(OrderQuery(start, end, client, OnlyInvoiced), clientIds, paperIds),
                    ShownBy(OrderQuery(start, end, client, OnlyUnbilled), clientIds, paperIds));
  }

  // -------------------------------------------------------- client statistics

  /** One line of the client statistics: number of orders and their total value. */
  datatype ClientTally = ClientTally(nrComenzi: nat, valoare: real)

  /** The client statistics after the orders `os`, keyed by client name, in list order. */
  function ClientStatsTable(os: seq<Order>, clients: map<int, Client>): map<string, ClientTally> {
    if os == [] then map[]
    else
      var acc := ClientStatsTable(os[..|os| - 1], clients);
      var o := os[|os| - 1];
      if o.beneficiarId in clients then
        Tally(acc, clients[o.beneficiarId].nume, PriceOrZero(o))
      else acc
  }

  /** Counts one more order of value `v` under name `n`. */
  function Tally(acc: map<string, ClientTally>, n: string, v: real): map<string, ClientTally> {
    var t := if n in acc then acc[n] else ClientTally(0, 0.0);
    acc[n := ClientTally(t.nrComenzi + 1, t.valoare + v)]
  }

  /** Counting under one name leaves every other name as it was. */
  lemma TallyElsewhere(acc: map<string, ClientTally>, n: string, v: real, m: string)
    requires m != n
    ensures m in Tally(acc, n, v) <==> m in acc
    ensures m in acc ==> Tally(acc, n, v)[m] == acc[m]
  {
  }

  /** Builds the client statistics over every order of an existing client. */
  method ClientStats(orders: seq<Order>, clients: map<int, Client>) returns (stats: map<string, ClientTally>)
    ensures stats == ClientStatsTable(orders, clients)
  {
    stats := map[];
    for i := 0 to |orders|
      invariant stats == ClientStatsTable(orders[..i], clients)
    {
      assert orders[..i + 1][..i] == orders[..i];
      var o := orders[i];
      if o.beneficiarId in clients {
        var benef := clients[o.beneficiarId].nume;
        if benef !in stats {
          stats := stats[benef := ClientTally(0, 0.0)];
        }
        stats := stats[benef := ClientTally(stats[benef].nrComenzi + 1, stats[benef].valoare + PriceOrZero(o))];
      }
    }
    assert orders[..|orders|] == orders;
  }

  /** The orders of the clients named `n`, as a filter. */
  function OfClientNamed(n: string, clients: map<int, Client>): Order -> bool {
    (o: Order) => o.beneficiarId in clients && clients[o.beneficiarId].nume == n
  }

  /**
   * Name by name, the statistics hold exactly the names with orders, and
   * for each: the number of orders of the clients of that name and the
   * sum of their prices, a missing price counting as 0.
   */
  lemma {:induction false} ClientStatsByName(os: seq<Order>, clients: map<int, Client>, n: string)
    ensures
      var sel := Filter(os, OfClientNamed(n, clients));
      var t := ClientStatsTable(os, clients);
      && (n in t <==> sel != [])
      && (n in t ==> t[n] == ClientTally(|sel|, TotalPrice(sel)))
  {
    if os != [] {
      var init, o := os[..|os| - 1], os[|os| - 1];
      assert os == init + [o];
      ClientStatsByName(init, clients, n);
      var keep := OfClientNamed(n, clients);
      FilterSnoc(init, o, keep);
      var sel0 := Filter(init, keep);
      var acc := ClientStatsTable(init, clients);
      var t := ClientStatsTable(os, clients);
      if o.beneficiarId !in clients {
        assert t == acc && !keep(o);
      } else {
        var m := clients[o.beneficiarId].nume;
        assert t == Tally(acc, m, PriceOrZero(o));
        if m != n {
          assert !keep(o);
          TallyElsewhere(acc, m, PriceOrZero(o), n);
        } else {
          assert keep(o);
          TotalPriceSnoc(sel0, o);
          if sel0 == [] {
            assert TotalPrice(sel0) == 0.0;
          }
        }
      }
    }
  }
}

=== FILE: sheet_tables.dfy ===
/**
 * The press-sheet yield tables: how many pieces of a press sheet one
 * sheet of stock paper gives. The invoicing debit and the reports use
 * one flat table keyed by press sheet; order entry uses a table keyed by
 * the paper format first. Both are parameters of the operations that
 * read them (a configuration file may replace the flat one); the
 * constants below are the built-in values.
 */
module SheetTables {

  /** Press sheet -> pieces per stock sheet. */
  type SheetIndices = map<string, int>

  /** Paper format -> the press sheets compatible with it and their yields. */
  type CompatTable = map<string, SheetIndices>

  /** Every yield in the table is positive, so dividing by it is defined. */
  predicate PositiveIndices(m: SheetIndices) {
    forall k :: k in m ==> m[k] > 0
  }

  predicate PositiveCompat(c: CompatTable) {
    forall f :: f in c ==> PositiveIndices(c[f])
  }

  /** The built-in flat table of the invoicing page and the stock report. */
  const DefaultIndiciCoala: SheetIndices := map[
      "330 x 480 mm" := 4,
      "SRA3 - 320 x 450 mm" := 4,
      "345 x 330 mm" := 6,
      "330 x 700 mm" := 3,
      "230 x 480 mm" := 6,
      "SRA4 – 225 x 320 mm" := 8,
      "230 x 330 mm" := 9,
      "330 X 250 mm" := 8,
      "250 x 700 mm" := 4,
      "230 x 250 mm" := 12,
      "250 x 350 mm" := 8,
      "A4 – 210 x 297 mm" := 8,
      "210 x 450 mm" := 6,
      "225 x 640 mm" := 4,
      "300 x 640 mm" := 3,
      "300 x 320 mm" := 6,
      "A3 – 297 x 420 mm" := 4,
      "305 x 430 mm" := 4,
      "215 x 305 mm" := 8,
      "280 x 610 mm" := 3,
      "200 x 430 mm" := 6
    ]

  /** The two-entry built-in table of the consumption report. */
  const ReportIndiciCoala: SheetIndices := map[
      "330 x 480 mm" := 4,
      "SRA3 - 320 x 450 mm" := 4
    ]

  /** Press sheets compatible with "70 x 100" paper. */
  const Sheets70x100: SheetIndices := map[
      "330 x 480 mm" := 4,
      "345 x 330 mm" := 6,
      "330 x 700 mm" := 3,
      "230 x 480 mm" := 6,
      "SRA4 – 225 x 320 mm" := 9,
      "230 x 330 mm" := 9,
      "330 X 250 mm" := 8,
      "250 x 700 mm" := 4,
      "230 x 250 mm" := 12,
      "250 x 350 mm" := 8
    ]

  /** Press sheets compatible with "72 x 102" paper. */
  const Sheets72x102: SheetIndices := map[
      "330 x 480 mm" := 4,
      "345 x 330 mm" := 6,
      "330 x 700 mm" := 3,
      "230 x 480 mm" := 6,
      "SRA4 – 225 x 320 mm" := 9,
      "230 x 330 mm" := 9,
      "330 X 250 mm" := 8,
      "250 x 700 mm" := 4,
      "230 x 250 mm" := 12,
      "250 x 350 mm" := 8
    ]

  /** Press sheets compatible with "45 x 64" paper. */
  const Sheets45x64: SheetIndices := map[
      "SRA3 - 320 x 450 mm" := 2,
      "SRA4 – 225 x 320 mm" := 4,
      "210 x 450 mm" := 3,
      "225 x 640 mm" := 2,
      "A3 – 297 x 420 mm" := 2
    ]

  /** Press sheets compatible with "SRA3" paper. */
  const SheetsSra3: SheetIndices := map[
      "SRA3 - 320 x 450 mm" := 1,
      "SRA4 – 225 x 320 mm" := 2,
      "A3 – 297 x 420 mm" := 1
    ]

  /** Press sheets compatible with "50 x 70" paper. */
  const Sheets50x70: SheetIndices := map[
      "330 x 480 mm" := 2,
      "230 x 480 mm" := 3,
      "230 x 330 mm" := 4,
      "330 X 250 mm" := 4,
      "250 x 700 mm" := 2,
      "230 x 250 mm" := 6,
      "250 x 350 mm" := 4
    ]

  /** Press sheets compatible with "A4" paper. */
  const SheetsA4: SheetIndices := map[
      "A4 – 210 x 297 mm" := 1
    ]

  /** Press sheets compatible with "64 x 90" paper. */
  const Sheets64x90: SheetIndices := map[
      "A4 – 210 x 297 mm" := 8,
      "210 x 450 mm" := 6,
      "225 x 640 mm" := 4,
      "300 x 640 mm" := 3,
      "300 x 320 mm" := 6,
      "A3 – 297 x 420 mm" := 4
    ]

  /** Press sheets compatible with "61 x 86" paper. */
  const Sheets61x86: SheetIndices := map[
      "A4 – 210 x 297 mm" := 8,
      "A3 – 297 x 420 mm" := 4
    ]

  /** Press sheets compatible with "A3" paper. */
  const SheetsA3: SheetIndices := map[
      "A4 – 210 x 297 mm" := 2,
      "A3 – 297 x 420 mm" := 1,
      "305 x 430 mm" := 1
    ]

  /** Press sheets compatible with "43 x 61" paper. */
  const Sheets43x61: SheetIndices := map[
      "A4 – 210 x 297 mm" := 4,
      "305 x 430 mm" := 2,
      "215 x 305 mm" := 4,
      "200 x 430 mm" := 3
    ]

  /** The built-in format-to-sheet compatibility table of order entry. */
  const DefaultCompat: CompatTable := map[
      "70 x 100" := Sheets70x100,
      "72 x 102" := Sheets72x102,
      "45 x 64" := Sheets45x64,
      "SRA3" := SheetsSra3,
      "50 x 70" := Sheets50x70,
      "A4" := SheetsA4,
      "64 x 90" := Sheets64x90,
      "61 x 86" := Sheets61x86,
      "A3" := SheetsA3,
      "43 x 61" := Sheets43x61
    ]

  /** The built-in tables, flat and per format, only hold positive yields. */
  lemma BuiltInIndicesPositive()
    ensures PositiveIndices(DefaultIndiciCoala)
    ensures PositiveIndices(ReportIndiciCoala)
    ensures PositiveCompat(DefaultCompat)
  {
    CompatRowsPositive();
  }

  // One lemma per row of the compatibility table: proved together, the
  // rows' string keys make a single proof too large.
  lemma PositiveSheets70x100() ensures PositiveIndices(Sheets70x100) {}
  lemma PositiveSheets72x102() ensures PositiveIndices(Sheets72x102) {}
  lemma PositiveSheets45x64() ensures PositiveIndices(Sheets45x64) {}
  lemma PositiveSheetsSra3() ensures PositiveIndices(SheetsSra3) {}
  lemma PositiveSheets50x70() ensures PositiveIndices(Sheets50x70) {}
  lemma PositiveSheetsA4() ensures PositiveIndices(SheetsA4) {}
  lemma PositiveSheets64x90() ensures PositiveIndices(Sheets64x90) {}
  lemma PositiveSheets61x86() ensures PositiveIndices(Sheets61x86) {}
  lemma PositiveSheetsA3() ensures PositiveIndices(SheetsA3) {}
  lemma PositiveSheets43x61() ensures PositiveIndices(Sheets43x61) {}

  /** The compatibility table's rows are exactly the ten row constants. */
  lemma CompatRows()
    ensures forall v :: v in DefaultCompat.Values ==> v in {Sheets70x100, Sheets72x102, Sheets45x64, SheetsSra3, Sheets50x70, SheetsA4, Sheets64x90, Sheets61x86, SheetsA3, Sheets43x61}
  {
  }

  /** Every row of the built-in compatibility table holds positive yields only. */
  lemma CompatRowsPositive()
    ensures PositiveCompat(DefaultCompat)
  {
    PositiveSheets70x100();
    PositiveSheets72x102();
    PositiveSheets45x64();
    PositiveSheetsSra3();
    PositiveSheets50x70();
    PositiveSheetsA4();
    PositiveSheets64x90();
    PositiveSheets61x86();
    PositiveSheetsA3();
    PositiveSheets43x61();
    CompatRows();
    forall f | f in DefaultCompat ensures PositiveIndices(DefaultCompat[f]) {
      assert DefaultCompat[f] in DefaultCompat.Values;
    }
  }

  /**
   * The two built-in tables disagree on SRA4 press sheets: one yields 9
   * pieces per "70 x 100" sheet at order entry but 8 at invoicing.
   */
  lemma Sra4YieldsDisagree()
    ensures Sheets70x100["SRA4 – 225 x 320 mm"] == 9
    ensures DefaultIndiciCoala["SRA4 – 225 x 320 mm"] == 8
  {
  }

  /**
   * The two built-in tables disagree on SRA3 press sheets: one cut from
   * SRA3 paper yields 1 piece at order entry but 4 at invoicing.
   */
  lemma Sra3YieldsDisagree()
    ensures SheetsSra3["SRA3 - 320 x 450 mm"] == 1
    ensures DefaultIndiciCoala["SRA3 - 320 x 450 mm"] == 4
  {
  }
}

=== FILE: shop_state.dfy ===
/**
 * The shop's database as one object: papers and clients keyed by id,
 * stock entries and orders in table order. Each submit of a page that
 * changes data is a method; each states the whole new state, and every
 * one of them keeps the ledger invariant `Valid` (no negative stock,
 * every weight matching its stock, unique ids and order numbers).
 */
module ShopState {
  import opened Common
  import opened SheetTables
  import opened PaperModel
  import opened OrderModel
  import opened OrderPage
  import opened PaperPage
  import opened StockPage
  import opened ClientPage
  import opened Invoicing
  import opened StockReset

  /**
   * Position of the first row whose `key` is `v`: the row a query by
   * order number or by entry id returns.
   */
  function IndexOf<T>(s: seq<T>, key: T -> int, v: int): (k: nat)
    requires exists i :: 0 <= i < |s| && key(s[i]) == v
    ensures k < |s| && key(s[k]) == v
    ensures forall j :: 0 <= j < k ==> key(s[j]) != v
  {
    if key(s[0]) == v then 0
    else
      assert exists i :: 0 <= i < |s[1..]| && key(s[1..][i]) == v by {
        var i :| 0 <= i < |s| && key(s[i]) == v;
        assert s[1..][i - 1] == s[i];
      }
      1 + IndexOf(s[1..], key, v)
  }

  function OrderNumber(o: Order): int { o.numar }

  function EntryId(e: StockEntry): int { e.id }

  /** Position of the first order numbered `numar` (`.filter(numar_comanda == …).first()`). */
  function IndexOfOrder(os: seq<Order>, numar: int): (k: nat)
    requires exists i :: 0 <= i < |os| && os[i].numar == numar
    ensures k < |os| && os[k].numar == numar
    ensures forall j :: 0 <= j < k ==> os[j].numar != numar
  {
    assert exists i :: 0 <= i < |os| && OrderNumber(os[i]) == numar;
    IndexOf(os, OrderNumber, numar)
  }

  /** Position of the stock entry with id `id` (`session.query(Stoc).get(id)`). */
  function IndexOfEntry(es: seq<StockEntry>, id: int): (k: nat)
    requires exists i :: 0 <= i < |es| && es[i].id == id
    ensures k < |es| && es[k].id == id
  {
    assert exists i :: 0 <= i < |es| && EntryId(es[i]) == id;
    IndexOf(es, EntryId, id)
  }

  lemma NonEmptySetHasMember(s: set<int>)
    requires s != {}
    ensures exists x :: x in s
  {
    if forall x :: x !in s {
      assert false;
    }
  }

  /** Every paper is stored under its own id, below the next free id, with a sound stock. */
  predicate PapersValid(papers: map<int, Paper>, nextId: int) {
    forall id :: id in papers ==> papers[id].id == id && id < nextId && StockOk(papers[id])
  }

  /** Every client is stored under its own id, below the next free id. */
  predicate ClientsValid(clients: map<int, Client>, nextId: int) {
    forall id :: id in clients ==> clients[id].id == id && id < nextId
  }

  /** Stock entry ids are pairwise distinct and below the next free id. */
  predicate EntriesValid(entries: seq<StockEntry>, nextId: int) {
    (forall i :: 0 <= i < |entries| ==> entries[i].id < nextId)
    && (forall i, j :: 0 <= i < j < |entries| ==> entries[i].id != entries[j].id)
  }

  /** Storing a paper with a sound stock under its own, existing id keeps the papers valid. */
  lemma StorePaperValid(papers: map<int, Paper>, nextId: int, p: Paper)
    requires PapersValid(papers, nextId)
    requires p.id in papers && StockOk(p)
    ensures PapersValid(papers[p.id := p], nextId)
  {
  }

  /** Zeroing the stock of every paper keeps the papers valid. */
  lemma ZeroedValid(was: map<int, Paper>, papers: map<int, Paper>, nextId: int)
    requires PapersValid(was, nextId)
    requires papers.Keys == was.Keys && forall id :: id in papers ==> papers[id] == Zeroed(was[id])
    ensures PapersValid(papers, nextId)
  {
  }

  /** Removing entry `k` keeps the entries valid. */
  lemma RemoveEntryValid(entries: seq<StockEntry>, nextId: int, k: nat)
    requires EntriesValid(entries, nextId) && k < |entries|
    ensures EntriesValid(entries[..k] + entries[k + 1..], nextId)
  {
    var r := entries[..k] + entries[k + 1..];
    assert forall i :: 0 <= i < |r| ==> r[i] == (if i < k then entries[i] else entries[i + 1]);
  }

  /** Replacing order `k` by one with the same number keeps the numbers unique. */
  lemma ReplaceOrderUnique(os: seq<Order>, k: nat, o: Order)
    requires UniqueNumbers(os) && k < |os| && o.numar == os[k].numar
    ensures UniqueNumbers(os[k := o])
  {
    var r := os[k := o];
    assert forall i :: 0 <= i < |r| ==> r[i].numar == os[i].numar;
  }

  /** Removing order `k` keeps the numbers unique. */
  lemma RemoveOrderUnique(os: seq<Order>, k: nat)
    requires UniqueNumbers(os) && k < |os|
    ensures UniqueNumbers(os[..k] + os[k + 1..])
  {
    var r := os[..k] + os[k + 1..];
    assert forall i :: 0 <= i < |r| ==> r[i] == (if i < k then os[i] else os[i + 1]);
  }

  class Shop {
    var papers: map<int, Paper>
    var clients: map<int, Client>
    var entries: seq<StockEntry>
    var orders: seq<Order>
    var nextPaperId: int
    var nextEntryId: int
    var nextClientId: int

    ghost predicate Valid()
      reads this
    {
      PapersValid(papers, nextPaperId) && ClientsValid(clients, nextClientId)
      && EntriesValid(entries, nextEntryId) && UniqueNumbers(orders)
    }

    constructor ()
      ensures Valid()
      ensures papers == map[] && clients == map[] && entries == [] && orders == []
    {
      papers, clients, entries, orders := map[], map[], [], [];
      nextPaperId, nextEntryId, nextClientId := 1, 1, 1;
    }

    // ------------------------------------------------------------ papers

    /** Adds a paper sort from the add form, under the next free id. */
    method AddPaper(f: PaperForm) returns (verdict: Option<PaperCheck>)
      requires Valid()
      requires f.formatHartie in FormateHartie  // chosen from the format list
      requires f.stoc >= 0.0                    // the stock field's minimum
      modifies this
      ensures Valid()
      ensures verdict == ValidatePaper(f)
      ensures verdict.Some? ==> unchanged(this)
      ensures verdict.None? ==>
        papers == old(papers)[old(nextPaperId) := NewPaper(old(nextPaperId), f)]
        && nextPaperId == old(nextPaperId) + 1
        && clients == old(clients) && entries == old(entries) && orders == old(orders)
        && nextEntryId == old(nextEntryId) && nextClientId == old(nextClientId)
    {
      verdict := ValidatePaper(f);
      if verdict.None? {
        papers := papers[nextPaperId := NewPaper(nextPaperId, f)];
        nextPaperId := nextPaperId + 1;
      }
    }

    /** Overwrites paper `id` from the edit form, stock included. */
    method UpdatePaper(id: int, f: PaperForm) returns (verdict: Option<PaperCheck>)
      requires Valid()
      requires id in papers
      requires f.formatHartie in FormateHartie
      requires f.stoc >= 0.0
      modifies this
      ensures Valid()
      ensures verdict == ValidatePaper(f)
      ensures verdict.Some? ==> unchanged(this)
      ensures verdict.None? ==>
        papers == old(papers)[id := UpdatedPaper(old(papers)[id], f)]
        && clients == old(clients) && entries == old(entries) && orders == old(orders)
        && nextPaperId == old(nextPaperId) && nextEntryId == old(nextEntryId) && nextClientId == old(nextClientId)
    {
      verdict := ValidatePaper(f);
      if verdict.None? {
        papers := papers[id := UpdatedPaper(papers[id], f)];
      }
    }

    // ------------------------------------------------------------- stock

    /**
     * Records a receipt of `cantitate` sheets of paper `hartieId` and adds
     * them to its stock, recomputing its weight.
     */
    method ReceiveStock(hartieId: int, cantitate: real, nrFactura: string, furnizor: string, data: Date)
      returns (verdict: Option<ReceiptCheck>)
      requires Valid()
      requires hartieId in papers  // chosen from the paper list
      modifies this
      ensures Valid()
      ensures verdict == ValidateReceipt(nrFactura, furnizor, cantitate)
      ensures verdict.Some? ==> unchanged(this)
      ensures verdict.None? ==>
        entries == old(entries) + [StockEntry(old(nextEntryId), hartieId, cantitate, nrFactura, furnizor, data)]
        && nextEntryId == old(nextEntryId) + 1
        && papers == old(papers)[hartieId := WithStock(old(papers)[hartieId], old(papers)[hartieId].stoc + cantitate)]
        && papers[hartieId].stoc == PreviewStock(old(papers)[hartieId], cantitate)
        && clients == old(clients) && orders == old(orders)
        && nextPaperId == old(nextPaperId) && nextClientId == old(nextClientId)
    {
      verdict := ValidateReceipt(nrFactura, furnizor, cantitate);
      if verdict.None? {
        entries := entries + [StockEntry(nextEntryId, hartieId, cantitate, nrFactura, furnizor, data)];
        nextEntryId := nextEntryId + 1;
        var p := papers[hartieId];
        papers := papers[hartieId := WithStock(p, p.stoc + cantitate)];
      }
    }

    /**
     * Deletes stock entry `entryId` and takes its sheets back out of its
     * paper's stock, unless that would make the stock negative.
     */
    method ReverseEntry(entryId: int) returns (ok: bool)
      requires Valid()
      requires exists i :: 0 <= i < |entries| && entries[i].id == entryId && entries[i].hartieId in papers
      modifies this
      ensures Valid()
      ensures
        var k := IndexOfEntry(old(entries), entryId);
        var e := old(entries)[k];
        var p := old(papers)[e.hartieId];
        && ok == (p.stoc >= e.cantitate)
        && (!ok ==> unchanged(this))
        && (ok ==>
          papers == old(papers)[e.hartieId := WithStock(p, p.stoc - e.cantitate)]
          && entries == old(entries)[..k] + old(entries)[k + 1..]
          && clients == old(clients) && orders == old(orders)
          && nextPaperId == old(nextPaperId) && nextEntryId == old(nextEntryId) && nextClientId == old(nextClientId))
    {
      var k := IndexOfEntry(entries, entryId);
      var e := entries[k];
      assert e.hartieId in papers by {
        var i :| 0 <= i < |entries| && entries[i].id == entryId && entries[i].hartieId in papers;
        assert i == k;
      }
      var p := papers[e.hartieId];
      ok := p.stoc >= e.cantitate;
      if ok {
        StorePaperValid(papers, nextPaperId, WithStock(p, p.stoc - e.cantitate));
        papers := papers[e.hartieId := WithStock(p, p.stoc - e.cantitate)];
        RemoveEntryValid(entries, nextEntryId, k);
        entries := entries[..k] + entries[k + 1..];
      }
    }

    /**
     * Deletes every stock entry and sets every paper's stock and weight
     * to 0, after the answer `answer` confirms; with no entries, or
     * without confirmation, nothing changes.
     */
    method ResetStock(answer: string) returns (outcome: ResetOutcome)
      requires Valid()
      modifies this
      ensures Valid()
      ensures old(entries) == [] ==> outcome == NothingToDelete && unchanged(this)
      ensures old(entries) != [] && !Confirms(answer) ==> outcome == Cancelled && unchanged(this)
      ensures old(entries) != [] && Confirms(answer) ==>
        outcome == Reset(|old(entries)|)
        && entries == []
        && papers.Keys == old(papers).Keys
        && (forall id :: id in papers ==> papers[id] == Zeroed(old(papers)[id]))
        && clients == old(clients) && orders == old(orders)
        && nextPaperId == old(nextPaperId) && nextEntryId == old(nextEntryId) && nextClientId == old(nextClientId)
    {
      if |entries| == 0 {
        return NothingToDelete;
      }
      if !Confirms(answer) {
        return Cancelled;
      }
      outcome := Reset(|entries|);
      entries := [];
      var zeroed := papers;
      var remaining := papers.Keys;
      while remaining != {}
        invariant remaining <= zeroed.Keys && zeroed.Keys == papers.Keys
        invariant forall id :: id in zeroed ==>
          zeroed[id] == (if id in remaining then papers[id] else Zeroed(papers[id]))
        decreases remaining
      {
        assert exists x :: x in remaining by { NonEmptySetHasMember(remaining); }
        var id :| id in remaining;
        zeroed := zeroed[id := Zeroed(zeroed[id])];
        remaining := remaining - {id};
      }
      ZeroedValid(papers, zeroed, nextPaperId);
      papers := zeroed;
    }

    // ------------------------------------------------------------ orders

    /**
     * Adds an order from the add form under the next order number. The
     * paper's stock is never touched.
     */
    method AddOrder(f: OrderForm, compat: CompatTable) returns (verdict: Option<OrderCheck>)
      requires Valid()
      requires PositiveCompat(compat)
      requires f.hartieId in papers && papers[f.hartieId].stoc > 0.0  // only papers in stock are offered
      requires f.beneficiarId in clients                               // chosen from the client list
      modifies this
      ensures Valid()
      ensures
        var offered := OfferedSheets(compat, old(papers)[f.hartieId].formatHartie);
        && verdict == ValidateNewOrder(f, old(papers)[f.hartieId], offered)
        && (verdict.Some? ==> unchanged(this))
        && (verdict.None? ==>
          orders == old(orders) + [NewOrder(NextOrderNumber(old(orders)), f, CreationSheetIndex(offered, f.coalaTipar))])
      ensures papers == old(papers) && clients == old(clients) && entries == old(entries)
      ensures nextPaperId == old(nextPaperId) && nextEntryId == old(nextEntryId) && nextClientId == old(nextClientId)
    {
      var offered := OfferedSheets(compat, papers[f.hartieId].formatHartie);
      verdict := ValidateNewOrder(f, papers[f.hartieId], offered);
      if verdict.None? {
        var o := NewOrder(NextOrderNumber(orders), f, CreationSheetIndex(offered, f.coalaTipar));
        NextNumberKeepsUnique(orders, o);
        orders := orders + [o];
      }
    }

    /**
     * Submits the edit form of order `numar` with sheet `chosenSheet`. The
     * sheet's compatibility is not checked again and an invoiced order is
     * left as it is.
     */
    method UpdateOrder(numar: int, f: OrderForm, compat: CompatTable, chosenSheet: string) returns (outcome: EditOutcome)
      requires Valid()
      requires PositiveCompat(compat)
      requires exists i :: 0 <= i < |orders| && orders[i].numar == numar
      requires f.hartieId in papers  // chosen from the paper list
      modifies this
      ensures Valid()
      ensures
        var k := IndexOfOrder(old(orders), numar);
        var (coala, index) := EditSheet(OfferedSheets(compat, old(papers)[f.hartieId].formatHartie), chosenSheet);
        && outcome == EditVerdict(old(orders)[k], f, index)
        && (outcome != Updated ==> unchanged(this))
        && (outcome == Updated ==>
          orders == old(orders)[k := EditedOrder(old(orders)[k], f, coala, index)]
          && papers == old(papers) && clients == old(clients) && entries == old(entries)
          && nextPaperId == old(nextPaperId) && nextEntryId == old(nextEntryId) && nextClientId == old(nextClientId))
    {
      var k := IndexOfOrder(orders, numar);
      var (coala, index) := EditSheet(OfferedSheets(compat, papers[f.hartieId].formatHartie), chosenSheet);
      outcome := EditVerdict(orders[k], f, index);
      if outcome == Updated {
        var e := EditedOrder(orders[k], f, coala, index);
        ReplaceOrderUnique(orders, k, e);
        orders := orders[k := e];
      }
    }

    /**
     * Presses the delete button of the edit form of order `numar`, drawn
     * with form values `f` and sheet `chosenSheet`: the order is deleted
     * unless the form cannot be drawn or the order is invoiced.
     */
    method DeleteOrder(numar: int, f: OrderForm, compat: CompatTable, chosenSheet: string) returns (deleted: bool)
      requires Valid()
      requires PositiveCompat(compat)
      requires exists i :: 0 <= i < |orders| && orders[i].numar == numar
      requires f.hartieId in papers  // chosen from the paper list
      modifies this
      ensures Valid()
      ensures
        var k := IndexOfOrder(old(orders), numar);
        var (_, index) := EditSheet(OfferedSheets(compat, old(papers)[f.hartieId].formatHartie), chosenSheet);
        && deleted == DeleteVerdict(old(orders)[k], f, index)
        && (!deleted ==> unchanged(this))
        && (deleted ==>
          orders == old(orders)[..k] + old(orders)[k + 1..]
          && papers == old(papers) && clients == old(clients) && entries == old(entries)
          && nextPaperId == old(nextPaperId) && nextEntryId == old(nextEntryId) && nextClientId == old(nextClientId))
    {
      var k := IndexOfOrder(orders, numar);
      var (_, index) := EditSheet(OfferedSheets(compat, papers[f.hartieId].formatHartie), chosenSheet);
      deleted := DeleteVerdict(orders[k], f, index);
      if deleted {
        RemoveOrderUnique(orders, k);
        orders := orders[..k] + orders[k + 1..];
      }
    }

    /**
     * Invoices the not-yet-invoiced order `numar` at price `pret`: after
     * the price and stock checks, records the price, marks the order
     * invoiced and debits its consumption from its paper.
     */
    method Invoice(numar: int, pret: real, indici: SheetIndices) returns (r: Result<real, InvoiceError>)
      requires Valid()
      requires PositiveIndices(indici)
      requires exists i :: 0 <= i < |orders| && orders[i].numar == numar
      requires !orders[IndexOfOrder(orders, numar)].facturata  // only unbilled orders are offered
      modifies this
      ensures Valid()
      ensures
        var k := IndexOfOrder(old(orders), numar);
        var o := old(orders)[k];
        var paper := if o.hartieId in old(papers) then Some(old(papers)[o.hartieId]) else None;
        && r == CheckInvoice(pret, o, paper, indici)
        && (r.Err? ==> unchanged(this))
        && (r.Ok? ==>
          orders == old(orders)[k := InvoicedOrder(o, pret)]
          && papers == (if paper.Some? then old(papers)[o.hartieId := DebitedPaper(paper.value, r.value)] else old(papers))
          && clients == old(clients) && entries == old(entries)
          && nextPaperId == old(nextPaperId) && nextEntryId == old(nextEntryId) && nextClientId == old(nextClientId))
    {
      var k := IndexOfOrder(orders, numar);
      var o := orders[k];
      var paper := if o.hartieId in papers then Some(papers[o.hartieId]) else None;
      r := CheckInvoice(pret, o, paper, indici);
      if r.Ok? {
        ReplaceOrderUnique(orders, k, InvoicedOrder(o, pret));
        orders := orders[k := InvoicedOrder(o, pret)];
        if paper.Some? {
          InvoiceKeepsStockOk(pret, o, paper.value, indici);
          StorePaperValid(papers, nextPaperId, DebitedPaper(paper.value, r.value));
          papers := papers[o.hartieId := DebitedPaper(paper.value, r.value)];
        }
      }
    }

    // ----------------------------------------------------------- clients

    /** Adds a client under the next free id when all four fields are filled in. */
    method AddClient(nume: string, persoanaContact: string, telefon: string, email: string) returns (ok: bool)
      requires Valid()
      modifies this
      ensures Valid()
      ensures ok == ValidClientFields(nume, persoanaContact, telefon, email)
      ensures !ok ==> unchanged(this)
      ensures ok ==>
        clients == old(clients)[old(nextClientId) := Client(old(nextClientId), nume, persoanaContact, telefon, email)]
        && nextClientId == old(nextClientId) + 1
        && papers == old(papers) && entries == old(entries) && orders == old(orders)
        && nextPaperId == old(nextPaperId) && nextEntryId == old(nextEntryId)
    {
      ok := ValidClientFields(nume, persoanaContact, telefon, email);
      if ok {
        clients := clients[nextClientId := Client(nextClientId, nume, persoanaContact, telefon, email)];
        nextClientId := nextClientId + 1;
      }
    }

    /** Overwrites the four fields of client `id` when all are filled in. */
    method UpdateClient(id: int, nume: string, persoanaContact: string, telefon: string, email: string) returns (ok: bool)
      requires Valid()
      requires id in clients
      modifies this
      ensures Valid()
      ensures ok == ValidClientFields(nume, persoanaContact, telefon, email)
      ensures !ok ==> unchanged(this)
      ensures ok ==>
        clients == old(clients)[id := Client(id, nume, persoanaContact, telefon, email)]
        && papers == old(papers) && entries == old(entries) && orders == old(orders)
        && nextPaperId == old(nextPaperId) && nextEntryId == old(nextEntryId) && nextClientId == old(nextClientId)
    {
      ok := ValidClientFields(nume, persoanaContact, telefon, email);
      if ok {
        clients := clients[id := Client(id, nume, persoanaContact, telefon, email)];
      }
    }
  }
}

=== FILE: stock_page.dfy ===
/**
 * The stock entries (`Stoc`, one receipt of sheets of a paper sort) and
 * the rules of the stock page: receipt validation, the stock preview and
 * the dated listing. Receiving and reversing entries are methods of
 * `ShopState.Shop`.
 */
module StockPage {
  import opened Common
  import opened PaperModel

  /** One receipt: `cantitate` sheets of paper `hartieId`, bought on invoice `nrFactura`. */
  datatype StockEntry = StockEntry(
    id: int,
    hartieId: int,
    cantitate: real,
    nrFactura: string,
    furnizor: string,
    data: Date)

  datatype ReceiptCheck = MissingInvoiceNumber | MissingSupplier | NonPositiveQuantity

  /** The receipt form's verdict: nothing when accepted, else the first check that fails. */
  function ValidateReceipt(nrFactura: string, furnizor: string, cantitate: real): (r: Option<ReceiptCheck>)
    ensures r.None? <==> nrFactura != "" && furnizor != "" && cantitate > 0.0
    ensures r == Some(MissingInvoiceNumber) <==> nrFactura == ""
    ensures r == Some(MissingSupplier) <==> nrFactura != "" && furnizor == ""
  {
    if nrFactura == "" then Some(MissingInvoiceNumber)
    else if furnizor == "" then Some(MissingSupplier)
    else if cantitate <= 0.0 then Some(NonPositiveQuantity)
    else None
  }

  /** The "stock after the receipt" the form shows before submitting. */
  function PreviewStock(p: Paper, cantitate: real): (s: real)
    ensures s == WithStock(p, p.stoc + cantitate).stoc
    ensures cantitate > 0.0 ==> s > p.stoc
  {
    p.stoc + cantitate
  }

  /** An entry the listing shows: its paper exists (inner join) and it is dated in [start, end]. */
  predicate Listed(e: StockEntry, papers: map<int, Paper>, start: Date, end: Date) {
    e.hartieId in papers && InPeriod(e.data, start, end)
  }

  /** The entries listed for the period [start, end], both ends included, in table order. */
  function EntriesInPeriod(entries: seq<StockEntry>, papers: map<int, Paper>, start: Date, end: Date): (r: seq<StockEntry>)
    ensures forall e :: e in r <==> e in entries && Listed(e, papers, start, end)
  {
    FilterMembers(entries, e => Listed(e, papers, start, end));
    Filter(entries, e => Listed(e, papers, start, end))
  }

  /** The sum of the quantities of `es`, in list order. */
  function TotalQuantity(es: seq<StockEntry>): real
  {
    if es == [] then 0.0 else TotalQuantity(es[..|es| - 1]) + es[|es| - 1].cantitate
  }
}

=== FILE: stock_reset.dfy ===
/**
 * The confirmation rule and outcomes of the script that deletes every
 * stock entry and zeroes every paper's stock; the reset itself is
 * `ShopState.Shop.ResetStock`.
 */
module StockReset {
  import opened Common

  /** The reset goes ahead only when the answer upper-cases to "DA". */
  predicate Confirms(answer: string) {
    Upper(answer) == "DA"
  }

  /** Exactly the four spellings of "da", in any mix of cases, confirm. */
  lemma ConfirmsExactly(answer: string)
    ensures Confirms(answer) <==> answer in {"DA", "Da", "dA", "da"}
  {
    if Confirms(answer) {
      assert |answer| == 2;
      assert UpperChar(answer[0]) == 'D' && UpperChar(answer[1]) == 'A';
      assert answer[0] == 'D' || answer[0] == 'd';
      assert answer[1] == 'A' || answer[1] == 'a';
      assert answer == [answer[0], answer[1]];
    }
    if answer in {"DA", "Da", "dA", "da"} {
      assert |answer| == 2 && Upper(answer)[0] == 'D' && Upper(answer)[1] == 'A';
      assert Upper(answer) == ['D', 'A'];
    }
  }

  /** How a run of the reset ends. */
  datatype ResetOutcome =
    | NothingToDelete          // no stock entry exists
    | Cancelled                // the answer did not confirm
    | Reset(deleted: nat)      // every entry deleted, every stock zeroed
}
